=== FILE: README.md ===
# NgrokSharp supervisor and control-plane client, modelled in Dafny

NgrokSharp is a .NET library that drives the `ngrok` daemon. It has two jobs:

- It supervises a single daemon process. A strategy object holds at most one process handle. It starts the daemon with a fixed command line, refuses a second start while a handle is held, and stops or disposes of the handle. It registers an auth token through a separate `ngrok` process. It reads the daemon's stdout and stderr line by line, logging each line and publishing the tunnel address it finds after `addr=`.
- It talks to the daemon's local HTTP API at `http://localhost:4040/api`. It waits until the API answers, creates tunnels (validating the request and retrying on 503), stops them, and lists and inspects captured requests.

The model is purely functional. Every operation is a function from the current state and its inputs to the next state, the calls it makes into the operating system or the HTTP API (in order), and the exception it throws, if any. The daemon's side of the conversation enters as parameters:

- the status codes it answers with;
- whether a process has exited;
- whether the config file exists, and if not whether its directory does;
- for the readiness wait, a trace of (cancelled, reply, elapsed milliseconds) per loop iteration.

Modules, one per concern:

| module | file | models |
|---|---|---|
| `Common` | common.dfy | nullable values, exceptions, `IsNullOrWhiteSpace`, `char.IsWhiteSpace`, 2xx |
| `Regions` | regions.dfy | the `Region` enum and its code table |
| `Urls` | urls.dfy | the API base address, endpoint paths, the `limit` numeral, reading query strings |
| `TunnelClient` | tunnel_client.dfy | `StartTunnelAsync` validation and retry, and the one-shot API calls |
| `ReadyWait` | ready_wait.dfy | `WaitForNgrok` |
| `LogLines` | log_lines.dfy | the stdout/stderr line handlers and the `addr=([^\s]+)` match |
| `Platform` | platform.dfy | `PlatformStrategy`: the handle, stop, dispose, `ConfigFile`, `Create` |
| `PlatformLinux` | platform_linux.dfy | `PlatformLinux`: binary path, guarded starts, token registration, `chmod` |
| `Manager` | manager.dfy | `NgrokManager`: construction, region-based starts, delegation, re-initialisation, sessions |

## Model

| member | source | states |
|---|---|---|
| `Common.BlankArgument` | NgrokSharp/NgrokManager.cs:235-246 | Every blank-argument check throws ArgumentException naming the parameter. Its message reads "Value cannot be null or whitespace. (Parameter '<name>')". |
| `Regions.FirstWithKey` | NgrokSharp/NgrokManager.cs:168 | `First(x => x.Key == region)` finds a value exactly when some entry has the key. The value found belongs to the earliest such entry. |
| `Regions.TableCoversAllRegions` | NgrokSharp/NgrokManager.cs:158-167 | Each of the seven named regions is a key of the table, so `First` never throws for a named region. |
| `Regions.SelectCode` | NgrokSharp/NgrokManager.cs:158-168 | The code a start uses is the table's value for the requested region. |
| `Regions.SelectCodeIsWireCode` | NgrokSharp/NgrokManager.cs:158-168 | The table lookup agrees with the documented code of each region: us, eu, ap, au, sa, jp, in. |
| `Regions.SelectCodeRoundTrip` | NgrokSharp/NgrokManager.cs:158-168 | Decoding the selected code gives back the region, and every code has two characters. |
| `Regions.RegionOfCodeInverse` | NgrokSharp/NgrokManager.cs:158-168 | A code decodes to a region if and only if that region selects it. |
| `Regions.SelectCodeInjective` | NgrokSharp/NgrokManager.cs:158-168 | No two regions share a code. |
| `Regions.CodesAreExactlySeven` | NgrokSharp/NgrokManager.cs:158-168 | The codes in use are exactly us, eu, ap, au, sa, jp and in. Each region selects one of them, and each of them is selected. |
| `Urls.Decimal` | NgrokSharp/NgrokManager.cs:291 | Interpolating `limit` gives a non-empty string of digits with no leading zero; zero renders as `0`. |
| `Urls.DecimalRoundTrip` | NgrokSharp/NgrokManager.cs:291 | The digits of `limit` read back as `limit`. |
| `Urls.TunnelUrl` | NgrokSharp/NgrokManager.cs:280 | The delete target is `{base}/tunnels/` followed by the name, unescaped. |
| `Urls.RequestUrl` | NgrokSharp/NgrokManager.cs:326 | The detail target is `{base}/requests/http/` followed by the id, unescaped. |
| `Urls.ListUrl` | NgrokSharp/NgrokManager.cs:291 | The unfiltered listing is `{base}/requests/http` with query `limit={limit}`. |
| `Urls.FilteredListUrl` | NgrokSharp/NgrokManager.cs:305 | The filtered listing is `{base}/requests/http` with query `tunnel_name={name}&limit={limit}`. |
| `Urls.ListQueryCarriesLimit` | NgrokSharp/NgrokManager.cs:291 | The unfiltered query carries exactly one parameter, `limit`, and its value reads back as the limit. |
| `Urls.FilteredListQueryCarriesNameAndLimit` | NgrokSharp/NgrokManager.cs:305 | For a name without '&', the filtered query carries exactly `tunnel_name` = the name, then `limit` = the limit. |
| `Urls.AmpersandInNameSplitsParameter` | NgrokSharp/NgrokManager.cs:305 | The name is not escaped. A name `a&b` yields three parameters: `tunnel_name` = `a`, then a parameter read from `b`, then `limit`. |
| `Urls.NameWithAmpersandInjectsLimit` | NgrokSharp/NgrokManager.cs:305 | For example, the name `web&limit=1` with limit 50 sends `tunnel_name=web`, `limit=1`, `limit=50`. |
| `TunnelClient.FirstBlank` | NgrokSharp/NgrokManager.cs:235-246 | Reference definition of a check cascade. It returns a name exactly when some field is blank, and the name returned belongs to the first blank field. |
| `TunnelClient.ValidateStart` | NgrokSharp/NgrokManager.cs:231-246 | Validation passes if and only if the request is present and addr, name and proto are all non-blank. A missing request gives ArgumentNullException for `startTunnelDto`. Any other failure is the blank-argument ArgumentException. |
| `TunnelClient.ValidateStartNamesFirstBlank` | NgrokSharp/NgrokManager.cs:235-246 | The parameter named is the first blank field in the order addr, name, proto. |
| `TunnelClient.Settle` | NgrokSharp/NgrokManager.cs:256-263 | A response ends the call successfully exactly when it is 2xx. Otherwise it is an HttpRequestException carrying that status. |
| `TunnelClient.PostLoop` | NgrokSharp/NgrokManager.cs:253-266 | From any point of the loop, more POSTs are made but never more than six in all. Every response before the last is 503. The last is not 503 unless all six were used. The outcome is settled by the last response, so the generic "failed to start tunnel" throw is never reached. |
| `TunnelClient.StartTunnel` | NgrokSharp/NgrokManager.cs:229-267 | A failed validation sends nothing and throws its error. Otherwise: one to six POSTs of the same payload, serialised once; 503s before the last; no 503 last unless six were made; the last response decides the result. |
| `TunnelClient.NullRequestSendsNothing` | NgrokSharp/NgrokManager.cs:231-234 | A null request throws ArgumentNullException naming `startTunnelDto`, before any POST. |
| `TunnelClient.BlankAddrReportedFirst` | NgrokSharp/NgrokManager.cs:235-238 | A blank addr is reported whatever name and proto hold, and no POST is made. |
| `TunnelClient.SucceedsAfterTwoUnavailable` | NgrokSharp/NgrokManager.cs:253-261 | 503, 503, 201 gives three POSTs and returns the 201. |
| `TunnelClient.SixUnavailableFails` | NgrokSharp/NgrokManager.cs:253-266 | Six 503s give six POSTs, then the request failure carrying 503. |
| `TunnelClient.OtherFailureNotRetried` | NgrokSharp/NgrokManager.cs:256-263 | A first response other than 503 ends the call after exactly one POST. |
| `TunnelClient.StopTunnel` | NgrokSharp/NgrokManager.cs:274-281 | It throws if and only if the name is blank, naming `name` and sending nothing. Otherwise it sends one DELETE of that tunnel and returns the daemon's answer. |
| `TunnelClient.ListTunnels` | NgrokSharp/NgrokManager.cs:312 | It never throws. It sends one bodiless GET of `{base}/tunnels` and returns the daemon's answer as it is. |
| `TunnelClient.ListCapturedRequests` | NgrokSharp/NgrokManager.cs:289-292 | It never throws and sends one GET whose query carries the limit. |
| `TunnelClient.ListCapturedRequestsFor` | NgrokSharp/NgrokManager.cs:301-306 | It throws if and only if the name is blank, naming `name` and sending nothing. Otherwise it sends one GET filtered by that name and limit. |
| `TunnelClient.CapturedRequestDetail` | NgrokSharp/NgrokManager.cs:321-327 | It throws if and only if the id is blank, naming `requestId` and sending nothing. Otherwise it sends one GET of that captured request. |
| `TunnelClient.DeleteCapturedRequests` | NgrokSharp/NgrokManager.cs:334 | It never throws. It sends one bodiless DELETE of `{base}/requests/http` and returns the daemon's answer as it is. |
| `TunnelClient.DefaultListingAsksForFifty` | NgrokSharp/NgrokManager.cs:289-305 | With `limit` left at its default, both listings end their query with `limit=50`. |
| `TunnelClient.FilteredListingTargetsTunnel` | NgrokSharp/NgrokManager.cs:301-306 | For a non-blank name without '&', the query string of the filtered listing, as formatted, reads back as exactly that tunnel name and a limit that is unchanged. |
| `TunnelClient.SharedCollections` | NgrokSharp/NgrokManager.cs:255-334 | Listing, creation and per-tunnel delete address one collection, `{base}/tunnels`. Capture listing, capture detail and the capture-buffer delete address `{base}/requests/http`. |
| `ReadyWait.PollLoop` | NgrokSharp/NgrokManager.cs:201-218 | The loop reports ready only after a 2xx answer. It lets an exception escape only for a failure the filter does not catch, or for a caught one once the stopwatch is past the timeout; a 2xx answer never escapes. It ends in cancellation only when cancellation is requested. Every iteration before the deciding one failed in a caught way within the timeout. |
| `ReadyWait.WaitForNgrok` | NgrokSharp/NgrokManager.cs:197-219 | Every clause of the loop's contract, from the first iteration, with a null timeout meaning 4000 ms. The timeout may be any number of milliseconds, negative ones included. The `return false` is unreachable. |
| `ReadyWait.NegativeTimeoutNeverRetries` | NgrokSharp/NgrokManager.cs:199-213 | A negative timeout, such as `Timeout.InfiniteTimeSpan`, is already exceeded: the first caught failure is rethrown after one GET. |
| `ReadyWait.ExceptionFilter` | NgrokSharp/NgrokManager.cs:206-214 | An iteration that is not cancelled and does not succeed ends the wait, rethrowing its failure, if and only if the failure is not a SocketException or HttpRequestException or the timeout has passed. Any other exception escapes at once. |
| `ReadyWait.ReadyWhenReachableInTime` | NgrokSharp/NgrokManager.cs:201-215 | The wait returns true after exactly k+1 GETs when the daemon answers 2xx at iteration k and all earlier iterations failed in a caught way within the timeout. |
| `ReadyWait.UnreachableRaisesAfterTimeout` | NgrokSharp/NgrokManager.cs:211-213 | A daemon that never answers makes the wait rethrow the caught failure of the first iteration past the timeout, never earlier. |
| `ReadyWait.DecidedByFirstStop` | NgrokSharp/NgrokManager.cs:201-218 | The outcome depends on nothing after the first iteration that does not go round again. |
| `LogLines.RunLength` | NgrokSharp/PlatformSpecific/PlatformStrategy.cs:74 | `[^\s]+` is greedy: the run contains no whitespace and stops only at whitespace or at the end of the line. |
| `LogLines.FindAddr` | NgrokSharp/PlatformSpecific/PlatformStrategy.cs:74-75 | From any start position, a match is found exactly when one exists. The match found is the leftmost, with its capture. |
| `LogLines.ExtractAddr` | NgrokSharp/PlatformSpecific/PlatformStrategy.cs:74-77 | `Regex.Match(line, "addr=([^\s]+)")` succeeds exactly when the pattern matches somewhere. Group 1 comes from the leftmost match. |
| `LogLines.CaptureShape` | NgrokSharp/PlatformSpecific/PlatformStrategy.cs:74 | A capture is non-empty, free of whitespace, follows `addr=`, and stops at whitespace or the end of the line. |
| `LogLines.ExtractedValueShape` | NgrokSharp/PlatformSpecific/PlatformStrategy.cs:74-77 | The published value follows the leftmost `addr=` that has a non-whitespace character after it. It is the maximal non-whitespace run there. |
| `LogLines.HandleStdout` | NgrokSharp/PlatformSpecific/PlatformStrategy.cs:61-81 | A null or whitespace-only line produces nothing. Any other line publishes the extracted address if there is one, and is logged verbatim at Debug when a logger is present. |
| `LogLines.HandleStderr` | NgrokSharp/PlatformSpecific/PlatformStrategy.cs:53-59 | A line is logged verbatim at Error if and only if it is non-blank and a logger is present. Stderr never publishes. |
| `LogLines.Notifications` | NgrokSharp/PlatformSpecific/PlatformStrategy.cs:74-78 | One line raises UrlChanged at most once. |
| `LogLines.PublishedIsLineLocal` | NgrokSharp/PlatformSpecific/PlatformStrategy.cs:61-81 | The handler keeps no state between lines: a stream publishes what its parts publish, in order. |
| `LogLines.AtMostOneNotificationPerLine` | NgrokSharp/PlatformSpecific/PlatformStrategy.cs:74-78 | A stream publishes no more values than it has lines. |
| `LogLines.ExtractsLocalhostAddress` | NgrokSharp/PlatformSpecific/PlatformStrategy.cs:74-77 | `addr=http://localhost:30000` publishes `http://localhost:30000`. |
| `LogLines.RunToEnd` | NgrokSharp/PlatformSpecific/PlatformStrategy.cs:74 | A whitespace-free tail is captured to the end of the line. |
| `LogLines.NoWordBoundary` | NgrokSharp/PlatformSpecific/PlatformStrategy.cs:74 | The pattern has no left boundary: `xaddr=v` publishes `v`. |
| `LogLines.LeftmostMatchWins` | NgrokSharp/PlatformSpecific/PlatformStrategy.cs:74-77 | If the first match is at k, the published value is the capture at k. An earlier `addr=` followed by whitespace is passed over, and later matches are ignored. |
| `LogLines.NoKeyNoNotification` | NgrokSharp/PlatformSpecific/PlatformStrategy.cs:74-80 | A non-blank line without `addr=` publishes nothing and is still logged. |
| `Platform.NewStrategy` | NgrokSharp/PlatformSpecific/PlatformStrategy.cs:29-34 | A new strategy holds no process handle and keeps its folder and logger. |
| `Platform.StopNgrok` | NgrokSharp/PlatformSpecific/PlatformStrategy.cs:36-49 | It never throws and always leaves the handle null. With no handle it does nothing. With one, it kills and then closes if and only if the process has not exited, and disposes of the handle last: three calls for a running process, one for an exited one. |
| `Platform.Dispose` | NgrokSharp/PlatformSpecific/PlatformStrategy.cs:51 | It disposes of a held handle but leaves the field, and so every guard, unchanged. |
| `Platform.Combine` | NgrokSharp/PlatformSpecific/PlatformStrategy.cs:21 | `Path.Combine` gives the other part when one part is empty, and gives the second part when that part is rooted. Otherwise it keeps the first part as a prefix and the second as a suffix, with exactly one separator between them, inserted only when the first part does not already end with one. |
| `Platform.ConfigFileShape` | NgrokSharp/PlatformSpecific/PlatformStrategy.cs:21 | The config file is the profile directory, one separator unless it already ends with one, then `.ngrok2/ngrok.yml`. With no profile directory it is the relative `.ngrok2/ngrok.yml`. It does not depend on the download folder. |
| `Platform.Create` | NgrokSharp/PlatformSpecific/PlatformStrategy.cs:186-200 | Windows gets the Windows variant and Linux or macOS the Linux variant, each with a fresh strategy. Any other system gets PlatformNotSupportedException with its fixed message. |
| `Platform.StopIsIdempotent` | NgrokSharp/PlatformSpecific/PlatformStrategy.cs:36-49 | A second stop finds no handle and does nothing. |
| `Platform.StopWithoutStartIsNoOp` | NgrokSharp/PlatformSpecific/PlatformStrategy.cs:29-49 | Stopping a never-started strategy does nothing and does not throw. |
| `PlatformLinux.BinaryPath` | NgrokSharp/PlatformSpecific/Linux/PlatformLinux.cs:13 | The binary is the download folder followed directly by `ngrok`, with no separator inserted. |
| `PlatformLinux.StartArgumentsRoundTrip` | NgrokSharp/PlatformSpecific/Linux/PlatformLinux.cs:59 | `start --none --region {region}` names the region and does not ask for logging. |
| `PlatformLinux.StartWithLoggingArgumentsRoundTrip` | NgrokSharp/PlatformSpecific/Linux/PlatformLinux.cs:93 | `start --none --region {region} --log=stdout` names the region and asks for logging to stdout. |
| `PlatformLinux.StartNgrok` | NgrokSharp/PlatformSpecific/Linux/PlatformLinux.cs:46-78 | It throws "already running" if and only if a handle is held, with no effect. Otherwise it records a live handle for the binary, changes nothing else, and launches once. |
| `PlatformLinux.StartNgrokWithLogging` | NgrokSharp/PlatformSpecific/Linux/PlatformLinux.cs:80-119 | Corrected (one `Start()`, see Findings). The same guard. Otherwise it launches the binary, then subscribes both handlers, then begins both line readers. Every subscription comes before every begin-read. |
| `PlatformLinux.StartNgrokWithLoggingAsWritten` | NgrokSharp/PlatformSpecific/Linux/PlatformLinux.cs:80-119 | As written: the same guard and the same final state, but the second `Start()` closes the first daemon's association without a kill and launches the command line again. Nothing is killed or disposed. |
| `PlatformLinux.RegisterAuthToken` | NgrokSharp/PlatformSpecific/Linux/PlatformLinux.cs:19-44 | It throws if and only if a handle is held or the config file's directory `.ngrok2` is missing, and then does nothing. A held handle gives the exact "register the AuthToken again" message. A missing directory gives DirectoryNotFoundException for the config file. Otherwise it writes `authtoken:` to the config file if and only if the file is absent, then runs `config add-authtoken {token}` to exit. It launches no daemon and leaves the handle null. |
| `PlatformLinux.SetExecutionBit` | NgrokSharp/PlatformSpecific/Linux/PlatformLinux.cs:121-137 | It runs `/bin/bash` to exit, with the argument `-c "chmod +x {path}"` and the path unescaped. |
| `PlatformLinux.ExitedProcessStillBlocks` | NgrokSharp/PlatformSpecific/Linux/PlatformLinux.cs:21-82 | The guard is a null check: the handle of an exited daemon still blocks both starts and registration, and a stop clears it. |
| `PlatformLinux.DisposeKeepsGuards` | NgrokSharp/PlatformSpecific/PlatformStrategy.cs:51 | After Dispose, both starts fail or succeed exactly as before. |
| `PlatformLinux.LaunchNamesRegion` | NgrokSharp/PlatformSpecific/Linux/PlatformLinux.cs:58-93 | From the null state, each start launches a command line naming the requested region. Only the logging start asks for logging. |
| `PlatformLinux.StartTwiceFails` | NgrokSharp/PlatformSpecific/Linux/PlatformLinux.cs:48-77 | A second start without a stop in between always fails. |
| `Manager.NewManager` | NgrokSharp/NgrokManager.cs:50-61 | The folder is the one given, or the default when it is null. The manager keeps the system it was built on, and the strategy is built from that folder and logger, with the variant for that system and no handle. An unsupported system throws. |
| `Manager.FreshManagerRunsOneDaemon` | NgrokSharp/NgrokManager.cs:50-61 | A manager built on Linux or macOS holds the Linux variant, and over any session of starts, stops and registrations it runs at most one daemon at a time. A manager built on Windows holds the Windows variant. |
| `Manager.StartNgrok` | NgrokSharp/NgrokManager.cs:156-170 | It fails if and only if a daemon is held, and then changes nothing. Otherwise it launches the binary with a command line naming the table's code for the region. The only change is the new handle: folder, logger, system, variant and the rest of the strategy stay as they were. |
| `Manager.StartNgrokWithLogging` | NgrokSharp/NgrokManager.cs:176-195 | Without a logger it throws ArgumentNullException for `_logger`, with no effect and no platform call. Otherwise it behaves like the platform's logging start as corrected (one `Start()`, see Findings), with the table's code. The only change is the new handle: folder, logger, system, variant and the rest of the strategy stay as they were. |
| `Manager.DefaultStartAsksForUs` | NgrokSharp/NgrokManager.cs:156-193 | With `region` left at its default, both starts ask the daemon for the `us` region. |
| `Manager.SelectCodeHasNoSpace` | NgrokSharp/NgrokManager.cs:158-168 | Every code is a single command-line word. |
| `Manager.StopNgrok` | NgrokSharp/NgrokManager.cs:339 | It delegates to the strategy's stop and leaves the handle null. |
| `Manager.Dispose` | NgrokSharp/NgrokManager.cs:341 | It delegates to the strategy's Dispose and leaves the manager unchanged. |
| `Manager.RegisterAuthToken` | NgrokSharp/NgrokManager.cs:150 | It delegates to the strategy. It is refused while a daemon is held, and throws DirectoryNotFoundException with no effect when `.ngrok2` is missing. Otherwise it ends by running the registration command. |
| `Manager.MarkDownloadExecutable` | NgrokSharp/NgrokManager.cs:117 | After a download, the file made executable is the strategy's binary path. |
| `Manager.MarkedFileIsLaunched` | NgrokSharp/NgrokManager.cs:117-169 | The file marked executable is the file both starts launch. |
| `Manager.SetNgrokDirectory` | NgrokSharp/NgrokManager.cs:124-128 | It sets the folder and builds a fresh strategy with no handle, without stopping anything. |
| `Manager.SetNgrokDirectoryWithLoggerAsWritten` | NgrokSharp/NgrokManager.cs:135-139 | As written: it stores the logger and rebuilds the strategy, but keeps the old folder. |
| `Manager.SetNgrokDirectoryWithLogger` | NgrokSharp/NgrokManager.cs:124-139 | As documented: it sets the folder and the logger and builds a fresh strategy. |
| `Manager.WithLoggerAsWrittenIgnoresPath` | NgrokSharp/NgrokManager.cs:135-139 | After the overload as written, the next start launches the binary in the old folder, not in the one passed. |
| `Manager.WithLoggerUsesPath` | NgrokSharp/NgrokManager.cs:124-139 | The corrected overload is the one-argument overload plus the logger, and the next logging start launches from the new folder. |
| `Manager.SetDirectoryOrphansDaemon` | NgrokSharp/NgrokManager.cs:124-144 | Re-initialising while a daemon runs issues no kill or dispose, and then lets a second daemon be launched. |
| `Manager.StartLoggingAccounted` | NgrokSharp/PlatformSpecific/Linux/PlatformLinux.cs:80-119 | The corrected logging start keeps the balance: a daemon is launched exactly when a handle comes to be held. |
| `Manager.LoggingStartAsWrittenLosesDaemon` | NgrokSharp/PlatformSpecific/Linux/PlatformLinux.cs:107-111 | The logging start as written launches two daemons, kills or disposes of neither, and holds one handle: one more daemon runs than the manager tracks. |
| `Manager.Apply` | NgrokSharp/NgrokManager.cs:150-339 | Every start (the logging start as corrected, see Findings), stop or registration keeps the balance: daemons launched plus held before equal handles released plus held after. |
| `Manager.SessionAccounting` | NgrokSharp/NgrokManager.cs:150-339 | Over any sequence of starts (the logging start as corrected), stops and registrations, no daemon is lost track of. From a fresh manager, at most one daemon is ever running. The code as written breaks this at every logging start (see Findings). |

## Left out

- HTTP transport, response bodies and JSON: each API call is reduced to the request it sends and the status the daemon answers with. The serialiser of `StartTunnelDTO` is a function parameter, applied once.
- TunnelClient.Settle: the HttpRequestException message `Failed to start tunnel: {status} {content}` is modelled only by its fixed prefix, because the status name and the response body are not modelled. Only the status it carries is.
- TunnelClient.StartTunnel: exceptions from `PostAsync` itself (an HttpRequestException from the transport, cancellation) are not modelled; responses are status codes only. In the source such an exception escapes at once, unretried, even after earlier 503s. The same holds for the GET and DELETE of the one-shot operations.
- TunnelClient.FilteredListingTargetsTunnel: it speaks of the query string as formatted. `HttpClient` parses the URL with `Uri`, so a name holding '#' starts a fragment that is never sent (the daemon then gets neither the rest of the name nor the limit), and '%' sequences are read as escapes. That parsing is not modelled.
- Urls.TunnelUrl: `Uri` escaping is not modelled. Names and ids are interpolated as given, which is also what the interpolated string does before `HttpClient` parses it.
- Process spawning and the `StartInfo` try/catch: the catch for "already associated with a real process" cannot fire on a fresh `Process`, so it is not modelled.
- Launch failure: `_ngrokProcess` is assigned before `Start()` (PlatformLinux.cs:50 and 84), so a launch that throws, for a missing binary say, leaves a handle that never started. Later starts and registrations are then refused, and `StopNgrok` throws from `HasExited`. The model's launches always succeed.
- PlatformLinux.StartNgrokWithLogging: it models the operation with one `Start()`. The second `Start()` at PlatformLinux.cs:111 first closes the association with the daemon already launched, releasing its handle and pipes without killing it, and then launches a second daemon. That code as written is `PlatformLinux.StartNgrokWithLoggingAsWritten` (see Findings).
- Manager.Apply: a logging start goes through the corrected one-`Start()` operation. The code as written breaks the balance at every logging start (`Manager.LoggingStartAsWrittenLosesDaemon`).
- Manager.StartNgrokWithLogging: it calls the corrected platform logging start. The source reaches PlatformLinux.cs:107-111, which calls `Start()` twice (see Findings).
- Manager.SessionAccounting: the balance and the one-daemon bound are proved for the corrected logging start. With the code as written, every logging start leaves one daemon running untracked (`Manager.LoggingStartAsWrittenLosesDaemon`), and launch failures are not modelled.
- Stopping after Dispose: `HasExited` throws on a disposed process. The model lets the handle's `exited` flag stand for what `Refresh` reports, so StopNgrok after Dispose is not modelled.
- Download and unzip (`DownloadAndUnzipNgrokAsync`), `DefaultDownloadFolder` and `GetDownloadUrl`: these are file-system and network I/O. The default folder is a parameter of `NewManager`. Only the final `SetExecutionBit` call of the download is modelled.
- The Windows variant: `PlatformWindows` is not part of this model. `Create` selects it. The manager operations that go through the variant (starts, registration, the execution bit) are modelled for the Linux variant only, and `Manager.OnLinuxVariant` states this as a precondition. `ConfigFile` uses the Unix separator.
- Timing and cancellation: `Stopwatch`, `Task.Delay` and the cancellation token become the per-iteration trace of `ReadyWait`. `ReadyWait.PollLoop` has a `TraceEnded` outcome for a trace that runs out. A real loop never reaches it.
- Event plumbing: the `UrlChanged` event and the concurrency of the two line readers. Only the per-line function is modelled.
- `ParseLogData`, `ParseLogLevel` and `GetLogFormatString`: these are dead code. Their one call site is commented out.
- The base `SetExecutionBit` is a no-op that only the Windows variant inherits, so it is not modelled.
- Regions.TableCoversAllRegions: `Region` is a closed datatype with the seven named regions. A C# enum is open, so a cast such as `(Region)7` makes `First` at NgrokManager.cs:168 and 193 throw InvalidOperationException. Such values are not modelled.
- The start guard: a handle that is present blocks starts even when its process has exited, and the model follows that code.
- `StartTunnel` and `PostLoop`: these take at least six responses, one per possible POST. Responses beyond the number of POSTs made are never read.

## Findings

| source | as written | input that shows it | evidently intended | confidence | as-written member | corrected member |
|---|---|---|---|---|---|---|
| NgrokSharp/NgrokManager.cs:135-139 | `SetNgrokDirectory(pathToExecutable, logger)` stores the logger and re-creates the strategy, but never assigns `pathToExecutable` to `DownloadFolder` | any manager whose folder differs from the path passed, e.g. folder `/home/u/.ngrok/` and path `/opt/ngrok/`; the next start launches `/home/u/.ngrok/ngrok` | set the folder, as the one-argument overload does (lines 124-128) and as the documentation of both overloads says | high (not executed) | `Manager.WithLoggerAsWrittenIgnoresPath` | `Manager.WithLoggerUsesPath` |
| NgrokSharp/PlatformSpecific/Linux/PlatformLinux.cs:107-113 | `StartNgrokWithLogging` calls `Start()`, attaches the handlers, then calls `Start()` again on the same `Process` | any logging start from the null state: `Process.Start()` closes the first daemon's association without killing it and launches a second daemon with the same command line, so the manager tracks the second daemon only. The first keeps running untracked at least until its next write to the closed stdout pipe, which will likely kill it | start the daemon once, attach the handlers, then begin reading | medium (not executed; rests on `Process.Start()` closing its current association before starting) | `Manager.LoggingStartAsWrittenLosesDaemon` | `Manager.StartLoggingAccounted` |

=== FILE: common.dfy ===
/** Shared vocabulary of the model: optional values, results, the exceptions
    the library raises, HTTP status classes and .NET's notion of whitespace. */
module Common {

  /** A possibly-null reference (a nullable string, a missing request object). */
  datatype Option<+T> = None | Some(value: T) {
    function GetOr(default: T): T {
      match this
      case Some(v) => v
      case None => default
    }
  }

  /** The exceptions thrown by the modelled operations, one constructor per
      .NET exception type in use. */
  datatype Error =
    | ArgumentNull(param: string)                       // ArgumentNullException(param)
    | InvalidArgument(message: string, param: string)   // ArgumentException(message, param)
    | Fatal(message: string)                            // Exception(message)
    | RequestFailed(status: int)                        // HttpRequestException carrying a status code
    | PlatformNotSupported(message: string)             // PlatformNotSupportedException(message)
    | DirectoryNotFound(path: string)                   // DirectoryNotFoundException for a file path

  /** Either the value an operation returns or the exception it throws. */
  datatype Result<+T> = Ok(value: T) | Err(error: Error)

  /** The message every blank-argument check passes to ArgumentException. */
  const BlankArgumentMessage := "Value cannot be null or whitespace."

  /** The `Message` property .NET composes for the argument exceptions:
      the message, then the parameter name in parentheses. For a failed
      tunnel creation only the fixed prefix of
      `Failed to start tunnel: {StatusCode} {content}` is given, because the
      status name and the response body are not modelled. */
  function ExceptionMessage(e: Error): string {
    match e
    case ArgumentNull(p) => "Value cannot be null. (Parameter '" + p + "')"
    case InvalidArgument(m, p) => m + " (Parameter '" + p + "')"
    case Fatal(m) => m
    case RequestFailed(_) => "Failed to start tunnel: "
    case PlatformNotSupported(m) => m
    case DirectoryNotFound(p) => "Could not find a part of the path '" + p + "'."
  }

  /** Unsigned 32-bit integers (`uint` in the source). */
  type UInt32 = x: int | 0 <= x < 0x1_0000_0000

  const ServiceUnavailable := 503

  /** HttpResponseMessage.IsSuccessStatusCode: the 2xx range. */
  predicate IsSuccessStatus(status: int) {
    200 <= status <= 299
  }

  /** char.IsWhiteSpace, which is also the set the regex class `\s` matches:
      the control characters U+0009 to U+000D, U+0085, and the Unicode
      space, line and paragraph separators. */
  predicate IsWhiteSpace(c: char) {
    var n := c as int;
    || 0x09 <= n <= 0x0D
    || n == 0x20
    || n == 0x85
    || n == 0xA0
    || n == 0x1680
    || 0x2000 <= n <= 0x200A
    || n == 0x2028
    || n == 0x2029
    || n == 0x202F
    || n == 0x205F
    || n == 0x3000
  }

  /** string.IsNullOrWhiteSpace: null, empty, or whitespace only. */
  predicate IsNullOrWhiteSpace(s: Option<string>) {
    s.None? || forall i :: 0 <= i < |s.value| ==> IsWhiteSpace(s.value[i])
  }

  /** The ArgumentException every blank-argument check throws. */
  function BlankArgument(param: string): (e: Error)
    ensures e.InvalidArgument? && e.param == param
    ensures ExceptionMessage(e) == "Value cannot be null or whitespace. (Parameter '" + param + "')"
  {
    InvalidArgument(BlankArgumentMessage, param)
  }
}

=== FILE: log_lines.dfy ===
/** The stdout and stderr line handlers of PlatformStrategy. Each line is
    handled on its own: it is dropped, or logged verbatim, and a stdout line
    may also publish the address that follows `addr=` through UrlChanged. */
module LogLines {
  import opened Common

  datatype LogLevel = Debug | Error

  datatype LogEntry = LogEntry(level: LogLevel, text: string)

  /** What handling one line produced: the value passed to UrlChanged, if the
      event was raised, and the logger call, if one was made. */
  datatype LineEffect = LineEffect(urlChanged: Option<string>, logged: Option<LogEntry>)

  const AddrKey := "addr="

  // ---------------------------------------------------------------------
  // The pattern addr=([^\s]+)

  /** The pattern matches at `k`: the five characters `addr=` start there and
      are followed by at least one non-whitespace character. Nothing is
      required before `k`: the pattern has no word boundary. */
  predicate MatchAt(s: string, k: int) {
    KeyAt(s, k) && k + |AddrKey| < |s| && !IsWhiteSpace(s[k + |AddrKey|])
  }

  /** The five characters `addr=` start at `k`. */
  predicate KeyAt(s: string, k: int) {
    0 <= k && k + |AddrKey| <= |s| && s[k..k + |AddrKey|] == AddrKey
  }

  /** The length of the greedy run `[^\s]+` starting at `j`. */
  function RunLength(s: string, j: nat): (n: nat)
    requires j <= |s|
    decreases |s| - j
    ensures j + n <= |s|
    ensures forall m :: j <= m < j + n ==> !IsWhiteSpace(s[m])
    ensures j + n == |s| || IsWhiteSpace(s[j + n])
  {
    if j == |s| || IsWhiteSpace(s[j]) then 0 else 1 + RunLength(s, j + 1)
  }

  /** Group 1 of a match at `k`. */
  function Capture(s: string, k: int): string
    requires MatchAt(s, k)
  {
    s[k + |AddrKey|..k + |AddrKey| + RunLength(s, k + |AddrKey|)]
  }

  /** The regex engine's scan: try each start position from `i` on and take
      the first one where the pattern matches. */
  function FindAddr(s: string, i: nat): (v: Option<string>)
    decreases |s| - i
    ensures v.Some? <==> exists k :: i <= k && MatchAt(s, k)
    ensures v.Some? ==>
      exists k :: i <= k && MatchAt(s, k) && v.value == Capture(s, k) &&
        forall j :: i <= j < k ==> !MatchAt(s, j)
  {
    if i + |AddrKey| >= |s| then
      assert forall k :: i <= k ==> !MatchAt(s, k);
      None
    else if MatchAt(s, i) then Some(Capture(s, i))
    else FindAddr(s, i + 1)
  }

  /** `Regex.Match(line, "addr=([^\s]+)")`: group 1 of the leftmost match. */
  function ExtractAddr(s: string): (v: Option<string>)
    ensures v.Some? <==> exists k :: MatchAt(s, k)
    ensures v.Some? ==>
      exists k :: MatchAt(s, k) && v.value == Capture(s, k) && forall j :: 0 <= j < k ==> !MatchAt(s, j)
  {
    FindAddr(s, 0)
  }

  /** What a capture looks like: `addr=` then a non-empty whitespace-free run
      that stops only at whitespace or at the end of the line. */
  lemma CaptureShape(s: string, k: int)
    requires MatchAt(s, k)
    ensures |Capture(s, k)| >= 1
    ensures forall m :: 0 <= m < |Capture(s, k)| ==> !IsWhiteSpace(Capture(s, k)[m])
    ensures k + |AddrKey| + |Capture(s, k)| <= |s|
    ensures s[k..k + |AddrKey| + |Capture(s, k)|] == AddrKey + Capture(s, k)
    ensures k + |AddrKey| + |Capture(s, k)| == |s| || IsWhiteSpace(s[k + |AddrKey| + |Capture(s, k)|])
  {
    var e := k + |AddrKey| + |Capture(s, k)|;
    assert s[k..e] == s[k..k + |AddrKey|] + s[k + |AddrKey|..e];
  }

  /** The published address, described without reference to the scan: a
      non-empty whitespace-free value that follows the leftmost `addr=` having
      a non-whitespace character after it, taken up to the next whitespace or
      the end of the line. */
  lemma ExtractedValueShape(s: string)
    requires ExtractAddr(s).Some?
    ensures var v := ExtractAddr(s).value;
      && |v| >= 1
      && (forall m :: 0 <= m < |v| ==> !IsWhiteSpace(v[m]))
      && exists k ::
        && MatchAt(s, k)
        && (forall j :: 0 <= j < k ==> !MatchAt(s, j))
        && k + |AddrKey| + |v| <= |s|
        && s[k..k + |AddrKey| + |v|] == AddrKey + v
        && (k + |AddrKey| + |v| == |s| || IsWhiteSpace(s[k + |AddrKey| + |v|]))
  {
    var v := ExtractAddr(s).value;
    var k :| MatchAt(s, k) && v == Capture(s, k) && forall j :: 0 <= j < k ==> !MatchAt(s, j);
    CaptureShape(s, k);
    var e := k + |AddrKey| + |v|;
    assert e <= |s| && s[k..e] == AddrKey + v && (e == |s| || IsWhiteSpace(s[e]));
  }

  // ---------------------------------------------------------------------
  // The handlers

  /** ProcessStandardOutput. A null, empty or whitespace-only line is
      ignored; any other line may raise UrlChanged once and is then logged
      verbatim at Debug (when a logger was supplied). */
  function HandleStdout(line: Option<string>, hasLogger: bool): (e: LineEffect)
    ensures IsNullOrWhiteSpace(line) ==> e == LineEffect(None, None)
    ensures !IsNullOrWhiteSpace(line) ==>
      && e.urlChanged == ExtractAddr(line.value)
      && e.logged == (if hasLogger then Some(LogEntry(Debug, line.value)) else None)
  {
    if IsNullOrWhiteSpace(line) then LineEffect(None, None)
    else LineEffect(ExtractAddr(line.value), if hasLogger then Some(LogEntry(Debug, line.value)) else None)
  }

  /** ProcessStandardError: a non-blank line is logged verbatim at Error;
      stderr never raises UrlChanged. */
  function HandleStderr(line: Option<string>, hasLogger: bool): (e: LineEffect)
    ensures e.urlChanged.None?
    ensures e.logged.Some? <==> hasLogger && !IsNullOrWhiteSpace(line)
    ensures e.logged.Some? ==> e.logged.value == LogEntry(Error, line.value)
  {
    if IsNullOrWhiteSpace(line) || !hasLogger then LineEffect(None, None)
    else LineEffect(None, Some(LogEntry(Error, line.value)))
  }

  /** The UrlChanged values one stdout line publishes: none or one. */
  function Notifications(line: Option<string>, hasLogger: bool): (ns: seq<string>)
    ensures |ns| <= 1
  {
    var e := HandleStdout(line, hasLogger);
    if e.urlChanged.Some? then [e.urlChanged.value] else []
  }

  /** The UrlChanged values a stream of stdout lines publishes, in order. */
  function Published(lines: seq<Option<string>>, hasLogger: bool): seq<string> {
    if |lines| == 0 then [] else Notifications(lines[0], hasLogger) + Published(lines[1..], hasLogger)
  }

  /** Handling is stateless across lines: the notifications of a stream are
      those of its parts, in order. */
  lemma {:induction false} PublishedIsLineLocal(a: seq<Option<string>>, b: seq<Option<string>>, hasLogger: bool)
    ensures Published(a + b, hasLogger) == Published(a, hasLogger) + Published(b, hasLogger)
  {
    if |a| > 0 {
      assert (a + b)[0] == a[0];
      assert (a + b)[1..] == a[1..] + b;
      PublishedIsLineLocal(a[1..], b, hasLogger);
      var n := Notifications(a[0], hasLogger);
      calc {
        Published(a + b, hasLogger);
        n + Published(a[1..] + b, hasLogger);
        n + (Published(a[1..], hasLogger) + Published(b, hasLogger));
        (n + Published(a[1..], hasLogger)) + Published(b, hasLogger);
      }
    } else {
      assert a + b == b;
    }
  }

  /** Each line raises UrlChanged at most once, so a stream publishes at most
      one value per line. */
  lemma {:induction false} AtMostOneNotificationPerLine(lines: seq<Option<string>>, hasLogger: bool)
    ensures |Published(lines, hasLogger)| <= |lines|
  {
    if |lines| > 0 {
      AtMostOneNotificationPerLine(lines[1..], hasLogger);
    }
  }

  /** The line the daemon prints when it starts listening yields its address. */
  lemma ExtractsLocalhostAddress()
    ensures ExtractAddr("addr=http://localhost:30000") == Some("http://localhost:30000")
  {
    var s := "addr=http://localhost:30000";
    assert KeyAt(s, 0);
    assert MatchAt(s, 0);
    RunToEnd(s, 5);
    assert FindAddr(s, 0) == Some(Capture(s, 0));
    assert Capture(s, 0) == s[5..];
  }

  /** A run of visible characters extends to the end of the line. */
  lemma {:induction false} RunToEnd(s: string, j: nat)
    requires j <= |s|
    requires forall m :: j <= m < |s| ==> !IsWhiteSpace(s[m])
    ensures RunLength(s, j) == |s| - j
    decreases |s| - j
  {
    if j < |s| {
      RunToEnd(s, j + 1);
    }
  }

  /** There is no left word boundary: `xaddr=v` publishes `v`. */
  lemma NoWordBoundary()
    ensures ExtractAddr("xaddr=v") == Some("v")
  {
    var s := "xaddr=v";
    assert s[0..5] != AddrKey by { assert s[0] != AddrKey[0]; }
    assert !MatchAt(s, 0);
    assert KeyAt(s, 1);
    assert MatchAt(s, 1);
    RunToEnd(s, 6);
    assert FindAddr(s, 0) == FindAddr(s, 1) == Some(Capture(s, 1));
    assert Capture(s, 1) == s[6..];
  }

  /** The leftmost match decides: an `addr=` followed by whitespace, or an
      earlier one that does not match, is passed over, and any later `addr=`
      on the line is ignored. */
  lemma {:induction false} LeftmostMatchWins(s: string, k: int)
    requires MatchAt(s, k)
    requires forall j :: 0 <= j < k ==> !MatchAt(s, j)
    ensures ExtractAddr(s) == Some(Capture(s, k))
  {
    var v := ExtractAddr(s).value;
    var k' :| MatchAt(s, k') && v == Capture(s, k') && forall j :: 0 <= j < k' ==> !MatchAt(s, j);
    assert k' == k;
  }

  /** A line without the key publishes nothing but is still logged. */
  lemma NoKeyNoNotification(line: string)
    requires !IsNullOrWhiteSpace(Some(line))
    requires forall k :: !KeyAt(line, k)
    ensures HandleStdout(Some(line), true) == LineEffect(None, Some(LogEntry(Debug, line)))
  {
  }
}

=== FILE: manager.dfy ===
/** NgrokManager as a supervisor: construction, the region-taking start
    operations, the delegating stop/dispose/register operations, and the
    re-initialisation done by SetNgrokDirectory. */
module Manager {
  import opened Common
  import opened Regions
  import opened Platform
  import PlatformLinux

  /** The manager's fields: the operating system it runs on (fixed), the
      download folder, whether a logger was supplied, and the platform
      strategy built from them. */
  datatype NgrokManager = NgrokManager(os: OS, downloadFolder: string, hasLogger: bool, platform: PlatformCode)

  /** One manager operation: the next manager, the calls made, and the
      exception thrown, if any. */
  datatype Outcome = Outcome(next: NgrokManager, effects: seq<Effect>, error: Option<Error>)

  /** The strategy was built by Create from the manager's own folder and
      logger, for a supported system. */
  predicate Consistent(m: NgrokManager) {
    && !m.os.OtherOS?
    && m.platform.strategy.downloadFolder == m.downloadFolder
    && m.platform.strategy.hasLogger == m.hasLogger
    && (m.platform.variant == WindowsVariant <==> m.os == Windows)
  }

  /** The operations that go through PlatformLinux are modelled on the
      systems that get that variant. */
  predicate OnLinuxVariant(m: NgrokManager) {
    Consistent(m) && m.platform.variant == LinuxVariant
  }

  /** The constructor: the folder given, or the default folder when it is
      null, and then InitializePlatform, which throws on an unsupported
      system. */
  function NewManager(os: OS, downloadFolder: Option<string>, defaultFolder: string, hasLogger: bool): (r: Result<NgrokManager>)
    ensures r.Ok? <==> !os.OtherOS?
    ensures r.Err? ==> r.error == PlatformNotSupported(UnsupportedPlatformMessage)
    ensures r.Ok? ==>
      && Consistent(r.value)
      && r.value.os == os
      && r.value.platform.strategy.process.None?
      && r.value.downloadFolder == (if downloadFolder.Some? then downloadFolder.value else defaultFolder)
      && r.value.hasLogger == hasLogger
  {
    var folder := downloadFolder.GetOr(defaultFolder);
    match Create(os, folder, hasLogger)
    case Ok(p) => Ok(NgrokManager(os, folder, hasLogger, p))
    case Err(e) => Err(e)
  }

  /** Replaces the strategy after one of its operations. */
  function WithStep(m: NgrokManager, st: Step): (o: Outcome)
    ensures o.next.platform.strategy == st.next && o.effects == st.effects && o.error == st.error
    ensures o.next.(platform := m.platform) == m && o.next.platform.variant == m.platform.variant
  {
    Outcome(m.(platform := m.platform.(strategy := st.next)), st.effects, st.error)
  }

  /** The default of the `region` parameter of both starts. */
  const DefaultRegion := UnitedStates

  /** StartNgrok(region): look the region up in the table and start the
      daemon with that code. */
  function StartNgrok(m: NgrokManager, r: Region): (o: Outcome)
    requires OnLinuxVariant(m)
    ensures OnLinuxVariant(o.next)
    ensures o.error.Some? <==> m.platform.strategy.process.Some?
    ensures o.error.Some? ==> o.next == m && o.effects == []
    ensures o.error.None? ==>
      && o.next.platform.strategy.process.Some?
      && o.next.(platform := m.platform) == m
      && o.next.platform.variant == m.platform.variant
      && o.next.platform.strategy.(process := m.platform.strategy.process) == m.platform.strategy
      && o.effects == [Launch(PlatformLinux.BinaryPath(m.downloadFolder), o.next.platform.strategy.process.value.arguments)]
      && PlatformLinux.ParseStartArguments(o.next.platform.strategy.process.value.arguments) == Some((SelectCode(r), false))
  {
    var code := SelectCode(r);
    SelectCodeHasNoSpace(r);
    var st := PlatformLinux.StartNgrok(m.platform.strategy, code);
    PlatformLinux.LaunchNamesRegion(m.platform.strategy, code);
    WithStep(m, st)
  }

  /** StartNgrokWithLogging(region): without a logger it throws
      ArgumentNullException for `_logger` before the table is built or the
      platform is called; otherwise it starts the daemon with logging. */
  function StartNgrokWithLogging(m: NgrokManager, r: Region): (o: Outcome)
    requires OnLinuxVariant(m)
    ensures OnLinuxVariant(o.next)
    ensures !m.hasLogger ==> o == Outcome(m, [], Some(ArgumentNull("_logger")))
    ensures m.hasLogger ==> (o.error.Some? <==> m.platform.strategy.process.Some?)
    ensures o.error.Some? ==> o.next == m && o.effects == []
    ensures o.error.None? ==>
      && m.hasLogger
      && o.next.platform.strategy.process.Some?
      && o.next.(platform := m.platform) == m
      && o.next.platform.variant == m.platform.variant
      && o.next.platform.strategy.(process := m.platform.strategy.process) == m.platform.strategy
      && |o.effects| == 5
      && o.effects[0] == Launch(PlatformLinux.BinaryPath(m.downloadFolder), o.next.platform.strategy.process.value.arguments)
      && o.effects[1..] == [SubscribeOutput, SubscribeError, BeginOutputRead, BeginErrorRead]
      && PlatformLinux.ParseStartArguments(o.next.platform.strategy.process.value.arguments) == Some((SelectCode(r), true))
  {
    if !m.hasLogger then Outcome(m, [], Some(ArgumentNull("_logger")))
    else
      var code := SelectCode(r);
      SelectCodeHasNoSpace(r);
      var st := PlatformLinux.StartNgrokWithLogging(m.platform.strategy, code);
      PlatformLinux.LaunchNamesRegion(m.platform.strategy, code);
      WithStep(m, st)
  }

  /** A start that leaves `region` at its default asks the daemon for the
      United States region. */
  lemma DefaultStartAsksForUs(m: NgrokManager)
    requires OnLinuxVariant(m) && m.platform.strategy.process.None?
    ensures PlatformLinux.ParseStartArguments(StartNgrok(m, DefaultRegion).next.platform.strategy.process.value.arguments) ==
      Some(("us", false))
    ensures m.hasLogger ==>
      PlatformLinux.ParseStartArguments(StartNgrokWithLogging(m, DefaultRegion).next.platform.strategy.process.value.arguments) ==
      Some(("us", true))
  {
    SelectCodeIsWireCode(DefaultRegion);
  }

  /** A selected code is two letters, so it survives the command line as one
      word. */
  lemma SelectCodeHasNoSpace(r: Region)
    ensures ' ' !in SelectCode(r)
  {
    SelectCodeIsWireCode(r);
  }

  /** StopNgrok: delegated to the strategy. */
  function StopNgrok(m: NgrokManager): (o: Outcome)
    requires Consistent(m)
    ensures Consistent(o.next) && o.error.None?
    ensures o.next.platform.strategy.process.None?
    ensures o.next.(platform := m.platform) == m
    ensures o.effects == Platform.StopNgrok(m.platform.strategy).effects
  {
    WithStep(m, Platform.StopNgrok(m.platform.strategy))
  }

  /** Dispose: delegated to the strategy; the handle field stays as it was. */
  function Dispose(m: NgrokManager): (o: Outcome)
    requires Consistent(m)
    ensures o.next == m && o.error.None?
    ensures o.effects == (if m.platform.strategy.process.Some? then [DisposeHandle] else [])
  {
    WithStep(m, Platform.Dispose(m.platform.strategy))
  }

  /** RegisterAuthTokenAsync: delegated to the strategy. What the file
      system holds of the config file and the user's profile directory are
      parameters. */
  function RegisterAuthToken(m: NgrokManager, token: string, config: ConfigState, home: string): (o: Outcome)
    requires OnLinuxVariant(m)
    ensures o.next == m
    ensures o.error.Some? <==> m.platform.strategy.process.Some? || config == NoConfigDirectory
    ensures o.error.Some? ==> o.effects == []
    ensures m.platform.strategy.process.Some? ==> o.error == Some(Fatal(PlatformLinux.AlreadyRunningRegisterMessage))
    ensures m.platform.strategy.process.None? && config == NoConfigDirectory ==>
      o.error == Some(DirectoryNotFound(ConfigFile(home)))
    ensures o.error.None? ==>
      |o.effects| >= 1 && o.effects[|o.effects| - 1] == RunToExit(PlatformLinux.BinaryPath(m.downloadFolder), PlatformLinux.RegisterArguments(token))
  {
    WithStep(m, PlatformLinux.RegisterAuthToken(m.platform.strategy, token, config, home))
  }

  /** The last step of DownloadAndUnzipNgrokAsync: mark `{DownloadFolder}ngrok`
      executable. */
  function MarkDownloadExecutable(m: NgrokManager): (e: Effect)
    requires OnLinuxVariant(m)
    ensures e == PlatformLinux.SetExecutionBit(PlatformLinux.BinaryPath(m.platform.strategy.downloadFolder))
  {
    PlatformLinux.SetExecutionBit(m.downloadFolder + "ngrok")
  }

  /** The file made executable after a download is the file both start
      operations launch. */
  lemma MarkedFileIsLaunched(m: NgrokManager, r: Region)
    requires OnLinuxVariant(m) && m.hasLogger && m.platform.strategy.process.None?
    ensures var path := MarkDownloadExecutable(m).arguments;
      && StartNgrok(m, r).effects[0].fileName == path[|"-c \"chmod +x "|..|path| - 1]
      && StartNgrokWithLogging(m, r).effects[0].fileName == path[|"-c \"chmod +x "|..|path| - 1]
  {
    var path := MarkDownloadExecutable(m).arguments;
    assert path[4..|path| - 1] == "chmod +x " + PlatformLinux.BinaryPath(m.downloadFolder);
    assert path[|"-c \"chmod +x "|..|path| - 1] == PlatformLinux.BinaryPath(m.downloadFolder);
  }

  // ---------------------------------------------------------------------
  // Re-initialisation

  /** SetNgrokDirectory(path): set the download folder and build a new
      strategy. The old strategy, with any daemon it holds, is dropped
      without being stopped. */
  function SetNgrokDirectory(m: NgrokManager, path: string): (o: Outcome)
    requires Consistent(m)
    ensures Consistent(o.next) && o.error.None? && o.effects == []
    ensures o.next.downloadFolder == path && o.next.hasLogger == m.hasLogger && o.next.os == m.os
    ensures o.next.platform.strategy.process.None?
  {
    var p := Create(m.os, path, m.hasLogger).value;
    Outcome(NgrokManager(m.os, path, m.hasLogger, p), [], None)
  }

  /** SetNgrokDirectory(path, logger) as written: the logger is stored and
      the strategy rebuilt, but the path is never assigned, so the strategy
      keeps the old folder. */
  function SetNgrokDirectoryWithLoggerAsWritten(m: NgrokManager, path: string): (o: Outcome)
    requires Consistent(m)
    ensures Consistent(o.next) && o.error.None? && o.effects == []
    ensures o.next.downloadFolder == m.downloadFolder && o.next.hasLogger && o.next.os == m.os
    ensures o.next.platform.strategy.process.None?
  {
    var p := Create(m.os, m.downloadFolder, true).value;
    Outcome(NgrokManager(m.os, m.downloadFolder, true, p), [], None)
  }

  /** SetNgrokDirectory(path, logger) as documented: the same as the
      one-argument overload, and the logger is stored too. */
  function SetNgrokDirectoryWithLogger(m: NgrokManager, path: string): (o: Outcome)
    requires Consistent(m)
    ensures Consistent(o.next) && o.error.None? && o.effects == []
    ensures o.next.downloadFolder == path && o.next.hasLogger && o.next.os == m.os
    ensures o.next.platform.strategy.process.None?
  {
    var p := Create(m.os, path, true).value;
    Outcome(NgrokManager(m.os, path, true, p), [], None)
  }

  /** The overload as written launches the binary from the old folder, not
      from the folder it was given. */
  lemma WithLoggerAsWrittenIgnoresPath(m: NgrokManager, path: string, r: Region)
    requires OnLinuxVariant(m) && path != m.downloadFolder
    ensures var n := SetNgrokDirectoryWithLoggerAsWritten(m, path).next;
      OnLinuxVariant(n) && StartNgrok(n, r).effects[0].fileName != PlatformLinux.BinaryPath(path)
  {
    var n := SetNgrokDirectoryWithLoggerAsWritten(m, path).next;
    var f := StartNgrok(n, r).effects[0].fileName;
    assert f == PlatformLinux.BinaryPath(m.downloadFolder);
  }

  /** The corrected overload agrees with the one-argument overload applied to
      a manager that has a logger, and the daemon it starts next is the
      binary in the new folder. */
  lemma WithLoggerUsesPath(m: NgrokManager, path: string, r: Region)
    requires OnLinuxVariant(m)
    ensures SetNgrokDirectoryWithLogger(m, path) ==
      SetNgrokDirectory(m.(hasLogger := true, platform := m.platform.(strategy := m.platform.strategy.(hasLogger := true))), path)
    ensures var n := SetNgrokDirectoryWithLogger(m, path).next;
      OnLinuxVariant(n) && StartNgrokWithLogging(n, r).effects[0].fileName == PlatformLinux.BinaryPath(path)
  {
  }

  /** Re-initialising while a daemon runs orphans it: no kill, close or
      dispose is issued, and the fresh strategy lets a second daemon be
      launched. */
  lemma SetDirectoryOrphansDaemon(m: NgrokManager, path: string, r: Region)
    requires OnLinuxVariant(m) && m.platform.strategy.process.Some?
    ensures StartNgrok(m, r).error.Some?
    ensures var o := SetNgrokDirectory(m, path);
      o.effects == [] && OnLinuxVariant(o.next) && StartNgrok(o.next, r).error.None?
  {
  }

  // ---------------------------------------------------------------------
  // Sessions

  /** The supervisor operations a caller can issue. */
  datatype Command =
    | Start(region: Region)
    | StartLogging(region: Region)
    | Stop
    | Register(token: string, config: ConfigState, home: string)

  /** The number of daemons the manager holds a handle for: zero or one. */
  function Live(m: NgrokManager): nat {
    if m.platform.strategy.process.Some? then 1 else 0
  }

  /** How many daemons a run of calls launched. */
  function Launches(es: seq<Effect>): nat {
    if |es| == 0 then 0 else (if es[0].Launch? then 1 else 0) + Launches(es[1..])
  }

  /** How many handles a run of calls disposed of. */
  function Releases(es: seq<Effect>): nat {
    if |es| == 0 then 0 else (if es[0].DisposeHandle? then 1 else 0) + Releases(es[1..])
  }

  lemma {:induction false} CountsAppend(a: seq<Effect>, b: seq<Effect>)
    ensures Launches(a + b) == Launches(a) + Launches(b)
    ensures Releases(a + b) == Releases(a) + Releases(b)
  {
    if |a| > 0 {
      assert (a + b)[0] == a[0];
      assert (a + b)[1..] == a[1..] + b;
      CountsAppend(a[1..], b);
    } else {
      assert a + b == b;
    }
  }

  /** Calls that neither launch nor release count for nothing. */
  lemma {:induction false} NothingHeld(es: seq<Effect>)
    requires forall i :: 0 <= i < |es| ==> !es[i].Launch? && !es[i].DisposeHandle?
    ensures Launches(es) == 0 && Releases(es) == 0
  {
    if |es| > 0 {
      NothingHeld(es[1..]);
    }
  }

  /** Every daemon a call launches is held afterwards, and every handle it
      releases was held before. */
  predicate Accounted(m: NgrokManager, o: Outcome) {
    Launches(o.effects) + Live(m) == Releases(o.effects) + Live(o.next)
  }

  lemma StartAccounted(m: NgrokManager, r: Region)
    requires OnLinuxVariant(m)
    ensures Accounted(m, StartNgrok(m, r))
  {
  }

  lemma StartLoggingAccounted(m: NgrokManager, r: Region)
    requires OnLinuxVariant(m)
    ensures Accounted(m, StartNgrokWithLogging(m, r))
  {
    LoggingStartCounts(m.platform.strategy, SelectCode(r));
  }

  /** The logging start launches once and releases nothing. */
  lemma LoggingStartCounts(s: Strategy, region: string)
    ensures var es := PlatformLinux.StartNgrokWithLogging(s, region).effects;
      Launches(es) == (if s.process.None? then 1 else 0) && Releases(es) == 0
  {
    var es := PlatformLinux.StartNgrokWithLogging(s, region).effects;
    if s.process.None? {
      NothingHeld(es[1..]);
      assert Launches(es) == 1 + Launches(es[1..]);
      assert Releases(es) == Releases(es[1..]);
    }
  }

  /** With the logging start as written, a start from the null state
      launches two daemons, kills or disposes of neither, and leaves one
      handle held: one
      daemon is no longer tracked by the manager. */
  lemma LoggingStartAsWrittenLosesDaemon(m: NgrokManager, r: Region)
    requires OnLinuxVariant(m) && m.platform.strategy.process.None?
    ensures var st := PlatformLinux.StartNgrokWithLoggingAsWritten(m.platform.strategy, SelectCode(r));
      && Launches(st.effects) == 2 && Releases(st.effects) == 0
      && Live(WithStep(m, st).next) == 1
      && Launches(st.effects) + Live(m) == Releases(st.effects) + Live(WithStep(m, st).next) + 1
  {
    LoggingStartAsWrittenCounts(m.platform.strategy, SelectCode(r));
  }

  /** The logging start as written launches twice and releases nothing. */
  lemma {:induction false} LoggingStartAsWrittenCounts(s: Strategy, region: string)
    requires s.process.None?
    ensures var es := PlatformLinux.StartNgrokWithLoggingAsWritten(s, region).effects;
      Launches(es) == 2 && Releases(es) == 0
  {
    var es := PlatformLinux.StartNgrokWithLoggingAsWritten(s, region).effects;
    var launch := es[0];
    assert launch.Launch? && es[4] == launch;
    var quiet := [SubscribeOutput, SubscribeError, Close];
    var tail := [BeginOutputRead, BeginErrorRead];
    assert es == [launch] + quiet + [launch] + tail;
    NothingHeld(quiet);
    NothingHeld(tail);
    CountsAppend([launch] + quiet + [launch], tail);
    CountsAppend([launch] + quiet, [launch]);
    CountsAppend([launch], quiet);
    assert Launches([launch]) == 1 && Releases([launch]) == 0;
  }

  lemma StopAccounted(m: NgrokManager)
    requires OnLinuxVariant(m)
    ensures Accounted(m, StopNgrok(m))
  {
    if m.platform.strategy.process.Some? {
      var terminate := if !m.platform.strategy.process.value.exited then [Kill, Close] else [];
      assert StopNgrok(m).effects == terminate + [DisposeHandle];
      CountsAppend(terminate, [DisposeHandle]);
    }
  }

  lemma RegisterAccounted(m: NgrokManager, token: string, config: ConfigState, home: string)
    requires OnLinuxVariant(m)
    ensures Accounted(m, RegisterAuthToken(m, token, config, home))
  {
    if m.platform.strategy.process.None? && config != NoConfigDirectory {
      var run := RunToExit(PlatformLinux.BinaryPath(m.downloadFolder), PlatformLinux.RegisterArguments(token));
      var es := RegisterAuthToken(m, token, config, home).effects;
      if config == ConfigFilePresent {
        assert es == [run];
      } else {
        assert es == [WriteFile(ConfigFile(home), "authtoken:")] + [run];
        CountsAppend([WriteFile(ConfigFile(home), "authtoken:")], [run]);
      }
    }
  }

  /** One command; an exception is caught by the caller, which goes on with
      the next command. */
  function Apply(m: NgrokManager, c: Command): (o: Outcome)
    requires OnLinuxVariant(m)
    ensures OnLinuxVariant(o.next)
    ensures Accounted(m, o)
  {
    match c
    case Start(r) => StartAccounted(m, r); StartNgrok(m, r)
    case StartLogging(r) => StartLoggingAccounted(m, r); StartNgrokWithLogging(m, r)
    case Stop => StopAccounted(m); StopNgrok(m)
    case Register(token, config, home) =>
      RegisterAccounted(m, token, config, home);
      RegisterAuthToken(m, token, config, home)
  }

  /** A session: the final manager and every call made, in order. */
  datatype Session = Session(final: NgrokManager, effects: seq<Effect>)

  function Run(m: NgrokManager, cs: seq<Command>): (s: Session)
    requires OnLinuxVariant(m)
    ensures OnLinuxVariant(s.final)
    decreases |cs|
  {
    if |cs| == 0 then Session(m, [])
    else
      var o := Apply(m, cs[0]);
      var rest := Run(o.next, cs[1..]);
      Session(rest.final, o.effects + rest.effects)
  }

  /** No daemon is lost track of: over any session, the daemons launched
      plus the one held at the start equal the handles disposed of plus the
      one held at the end. So from a fresh manager at most one daemon is
      running at any time. */
  lemma {:induction false} SessionAccounting(m: NgrokManager, cs: seq<Command>)
    requires OnLinuxVariant(m)
    ensures Launches(Run(m, cs).effects) + Live(m) == Releases(Run(m, cs).effects) + Live(Run(m, cs).final)
    ensures Launches(Run(m, cs).effects) <= Releases(Run(m, cs).effects) + 1
    decreases |cs|
  {
    if |cs| > 0 {
      var o := Apply(m, cs[0]);
      SessionAccounting(o.next, cs[1..]);
      CountsAppend(o.effects, Run(o.next, cs[1..]).effects);
    }
  }

  /** A manager built on Linux or macOS holds the Linux variant and no
      daemon, so over any session it runs at most one daemon at a time. On
      Windows it holds the Windows variant. */
  lemma {:induction false} FreshManagerRunsOneDaemon(os: OS, downloadFolder: Option<string>, defaultFolder: string,
                                                     hasLogger: bool, cs: seq<Command>)
    requires os == Linux || os == MacOS
    ensures NewManager(os, downloadFolder, defaultFolder, hasLogger).Ok?
    ensures var m := NewManager(os, downloadFolder, defaultFolder, hasLogger).value;
      && OnLinuxVariant(m)
      && Launches(Run(m, cs).effects) <= Releases(Run(m, cs).effects) + 1
      && Launches(Run(m, cs).effects) == Releases(Run(m, cs).effects) + Live(Run(m, cs).final)
    ensures NewManager(Windows, downloadFolder, defaultFolder, hasLogger).value.platform.variant == WindowsVariant
  {
    var m := NewManager(os, downloadFolder, defaultFolder, hasLogger).value;
    SessionAccounting(m, cs);
  }
}

=== FILE: platform.dfy ===
/** PlatformStrategy: the state shared by the platform variants (the child
    process handle), stopping and disposing of it, the config-file path, and
    the choice of variant by operating system. */
module Platform {
  import opened Common

  /** The child process, as far as the supervisor looks at it: what was
      launched, and whether it has exited (as `Refresh` would report). */
  datatype ProcessHandle = ProcessHandle(fileName: string, arguments: string, exited: bool)

  /** The calls into the operating system an operation makes, in order. */
  datatype Effect =
    | Launch(fileName: string, arguments: string)    // Start of the supervised daemon
    | SubscribeOutput                                // OutputDataReceived += ProcessStandardOutput
    | SubscribeError                                 // ErrorDataReceived += ProcessStandardError
    | BeginOutputRead                                // BeginOutputReadLine
    | BeginErrorRead                                 // BeginErrorReadLine
    | Kill
    | Close
    | DisposeHandle
    | WriteFile(path: string, contents: string)
    | RunToExit(fileName: string, arguments: string) // a separate process, awaited until it exits

  /** The fields of a strategy; `process` is null or the supervised daemon. */
  datatype Strategy = Strategy(downloadFolder: string, hasLogger: bool, process: Option<ProcessHandle>)

  /** One supervisor operation: the next state, the calls made, and the
      exception thrown, if any. */
  datatype Step = Step(next: Strategy, effects: seq<Effect>, error: Option<Error>)

  /** The constructor: no process handle yet. */
  function NewStrategy(downloadFolder: string, hasLogger: bool): (s: Strategy)
    ensures s.process.None?
    ensures s.downloadFolder == downloadFolder && s.hasLogger == hasLogger
  {
    Strategy(downloadFolder, hasLogger, None)
  }

  /** StopNgrok. Without a handle nothing happens. With one, the process is
      killed and closed only if it has not exited, the handle is disposed, and
      the field is cleared so that a later start is allowed. */
  function StopNgrok(s: Strategy): (st: Step)
    ensures st.error.None?
    ensures st.next == s.(process := None)
    ensures s.process.None? ==> st.effects == []
    ensures s.process.Some? ==> (Kill in st.effects <==> !s.process.value.exited)
    ensures s.process.Some? ==> (Close in st.effects <==> !s.process.value.exited)
    ensures s.process.Some? ==> |st.effects| == (if s.process.value.exited then 1 else 3)
    ensures s.process.Some? && !s.process.value.exited ==> st.effects[0] == Kill && st.effects[1] == Close
    ensures s.process.Some? ==> st.effects[|st.effects| - 1] == DisposeHandle
    ensures forall e :: e in st.effects ==> e in [Kill, Close, DisposeHandle]
  {
    match s.process
    case None => Step(s, [], None)
    case Some(p) =>
      var terminate := if !p.exited then [Kill, Close] else [];
      Step(s.(process := None), terminate + [DisposeHandle], None)
  }

  /** Dispose: releases the OS handle but leaves the field set, so every
      null check sees the same state as before. */
  function Dispose(s: Strategy): (st: Step)
    ensures st.error.None? && st.next == s
    ensures st.effects == (if s.process.Some? then [DisposeHandle] else [])
  {
    Step(s, if s.process.Some? then [DisposeHandle] else [], None)
  }

  /** The directory separator of the Unix-like platforms. */
  const Separator := '/'

  /** A path that starts at the root. */
  predicate Rooted(path: string) {
    |path| > 0 && path[0] == Separator
  }

  /** Path.Combine of two parts: an empty part gives the other one, a rooted
      second part replaces the first, and otherwise the parts are joined
      with one separator, inserted only when the first part does not already
      end with one. */
  function Combine(a: string, b: string): (p: string)
    ensures |a| == 0 ==> p == b
    ensures |a| > 0 && |b| == 0 ==> p == a
    ensures |a| > 0 && Rooted(b) ==> p == b
    ensures |a| > 0 && |b| > 0 && !Rooted(b) ==>
      && |a| + |b| <= |p| <= |a| + |b| + 1 && p[..|a|] == a && p[|p| - |b|..] == b
      && p[|p| - |b| - 1] == Separator
      && |p| == |a| + |b| + (if a[|a| - 1] == Separator then 0 else 1)
  {
    if |a| == 0 then b
    else if |b| == 0 then a
    else if Rooted(b) then b
    else if a[|a| - 1] == Separator then a + b
    else a + [Separator] + b
  }

  /** What the file system holds of the config file: the file itself, only
      its directory `.ngrok2`, or not even that directory. */
  datatype ConfigState = ConfigFilePresent | ConfigDirectoryOnly | NoConfigDirectory

  /** ConfigFile: `.ngrok2/ngrok.yml` under the user's profile directory
      `home`. It takes no download folder: two strategies over different
      folders share one config file. */
  function ConfigFile(home: string): string {
    Combine(Combine(home, ".ngrok2"), "ngrok.yml")
  }

  /** The config file is `.ngrok2/ngrok.yml` directly under the profile
      directory: one separator is inserted after `home` unless it already
      ends with one, and with no profile directory the path is relative. */
  lemma ConfigFileShape(home: string)
    ensures |home| == 0 ==> ConfigFile(home) == ".ngrok2/ngrok.yml"
    ensures |home| > 0 ==>
      ConfigFile(home) == home + (if home[|home| - 1] == Separator then "" else "/") + ".ngrok2/ngrok.yml"
  {
    var dir := Combine(home, ".ngrok2");
    ConfigDirShape(home);
    assert dir[|dir| - 1] == '2';
    assert ConfigFile(home) == dir + [Separator] + "ngrok.yml";
    if |home| > 0 {
      var sep := if home[|home| - 1] == Separator then "" else "/";
      assert dir == home + sep + ".ngrok2";
      assert dir + [Separator] + "ngrok.yml" == home + sep + (".ngrok2" + [Separator] + "ngrok.yml");
    } else {
      assert dir == ".ngrok2";
    }
  }

  /** The config directory: `.ngrok2` after the profile directory and at
      most one separator. */
  lemma ConfigDirShape(home: string)
    ensures |home| == 0 ==> Combine(home, ".ngrok2") == ".ngrok2"
    ensures |home| > 0 ==>
      Combine(home, ".ngrok2") == home + (if home[|home| - 1] == Separator then "" else "/") + ".ngrok2"
    ensures var dir := Combine(home, ".ngrok2"); |dir| >= 7 && dir[|dir| - 1] == '2'
  {
    var dir := Combine(home, ".ngrok2");
    if |home| > 0 && home[|home| - 1] != Separator {
      assert dir == home + "/" + ".ngrok2";
    }
    assert dir[|dir| - 7..] == ".ngrok2";
    assert dir[|dir| - 1] == dir[|dir| - 7..][6];
  }

  datatype OS = Windows | Linux | MacOS | OtherOS(name: string)

  datatype Variant = WindowsVariant | LinuxVariant

  /** The strategy Create builds, with its variant. */
  datatype PlatformCode = PlatformCode(variant: Variant, strategy: Strategy)

  const UnsupportedPlatformMessage := "The current platform is not supported."

  /** Create: Windows gets the Windows variant, Linux and macOS the Linux
      variant, and any other system is refused. */
  function Create(os: OS, downloadFolder: string, hasLogger: bool): (r: Result<PlatformCode>)
    ensures r.Ok? <==> !os.OtherOS?
    ensures r.Ok? ==> r.value.strategy == NewStrategy(downloadFolder, hasLogger)
    ensures r.Ok? ==> (r.value.variant == WindowsVariant <==> os == Windows)
    ensures r.Err? ==> r.error == PlatformNotSupported(UnsupportedPlatformMessage)
  {
    if os == Windows then Ok(PlatformCode(WindowsVariant, NewStrategy(downloadFolder, hasLogger)))
    else if os == Linux || os == MacOS then Ok(PlatformCode(LinuxVariant, NewStrategy(downloadFolder, hasLogger)))
    else Err(PlatformNotSupported(UnsupportedPlatformMessage))
  }

  /** Stopping is idempotent: a second stop finds no handle and does nothing. */
  lemma StopIsIdempotent(s: Strategy)
    ensures StopNgrok(StopNgrok(s).next) == Step(StopNgrok(s).next, [], None)
  {
  }

  /** Stopping a never-started strategy is a no-op that does not throw. */
  lemma StopWithoutStartIsNoOp(downloadFolder: string, hasLogger: bool)
    ensures var s := NewStrategy(downloadFolder, hasLogger);
      StopNgrok(s) == Step(s, [], None)
  {
  }
}

=== FILE: platform_linux.dfy ===
/** PlatformLinux, the variant used on Linux and macOS: where the binary is,
    the guarded start operations, token registration, and marking the binary
    executable. */
module PlatformLinux {
  import opened Common
  import opened Platform
  import Urls

  const AlreadyRunningStartMessage :=
    "The Ngrok process is already running. Please use StopNgrok() and then StartNgrok again."
  const AlreadyRunningRegisterMessage :=
    "The Ngrok process is already running. Please use StopNgrok() and then register the AuthToken again."

  /** BinaryPath: the download folder and `ngrok`, with no separator inserted
      (the folder is expected to end with one). */
  function BinaryPath(downloadFolder: string): (path: string)
    ensures |path| == |downloadFolder| + 5
    ensures path[..|downloadFolder|] == downloadFolder
    ensures path[|downloadFolder|..] == "ngrok"
  {
    downloadFolder + "ngrok"
  }

  // ---------------------------------------------------------------------
  // Command lines

  /** `start --none --region {region}` */
  function StartArguments(region: string): string {
    "start --none --region " + region
  }

  /** `start --none --region {region} --log=stdout` */
  function StartWithLoggingArguments(region: string): string {
    "start --none --region " + region + " --log=stdout"
  }

  /** `config add-authtoken {authtoken}` */
  function RegisterArguments(token: string): string {
    "config add-authtoken " + token
  }

  /** How the daemon reads a start command line: the region code, and whether
      logging to stdout was asked for. */
  function ParseStartArguments(arguments: string): Option<(string, bool)> {
    var words := Urls.Split(arguments, ' ');
    if |words| == 4 && words[0] == "start" && words[1] == "--none" && words[2] == "--region" then
      Some((words[3], false))
    else if |words| == 5 && words[0] == "start" && words[1] == "--none" && words[2] == "--region" &&
            words[4] == "--log=stdout" then
      Some((words[3], true))
    else None
  }

  /** The fixed head of both start command lines, word by word. */
  lemma StartHeadWords(rest: string)
    ensures Urls.Split("start --none --region " + rest, ' ') == ["start", "--none", "--region"] + Urls.Split(rest, ' ')
  {
    assert "start --none --region " + rest == "start" + [' '] + ("--none" + [' '] + ("--region" + [' '] + rest));
    Urls.SplitPrefix("--region", ' ', rest);
    Urls.SplitPrefix("--none", ' ', "--region" + [' '] + rest);
    Urls.SplitPrefix("start", ' ', "--none" + [' '] + ("--region" + [' '] + rest));
  }

  /** The command line of StartNgrok names the requested region and does not
      ask for logging, provided the region code holds no space. */
  lemma {:induction false} StartArgumentsRoundTrip(region: string)
    requires ' ' !in region
    ensures ParseStartArguments(StartArguments(region)) == Some((region, false))
  {
    StartHeadWords(region);
    Urls.SplitNoSeparator(region, ' ');
    var words := Urls.Split(StartArguments(region), ' ');
    assert words == ["start", "--none", "--region", region];
  }

  /** The command line of StartNgrokWithLogging names the requested region
      and asks for logging to stdout. */
  lemma {:induction false} StartWithLoggingArgumentsRoundTrip(region: string)
    requires ' ' !in region
    ensures ParseStartArguments(StartWithLoggingArguments(region)) == Some((region, true))
  {
    var tail := region + [' '] + LogFlag;
    LoggingLineShape(region);
    StartHeadWords(tail);
    LoggingTailWords(region);
    var words := Urls.Split(StartWithLoggingArguments(region), ' ');
    assert words == ["start", "--none", "--region", region, LogFlag];
  }

  const LogFlag := "--log=stdout"

  lemma LoggingLineShape(region: string)
    ensures StartWithLoggingArguments(region) == "start --none --region " + (region + [' '] + LogFlag)
  {
  }

  lemma LoggingTailWords(region: string)
    requires ' ' !in region
    ensures Urls.Split(region + [' '] + LogFlag, ' ') == [region, LogFlag]
  {
    Urls.SplitPrefix(region, ' ', LogFlag);
    Urls.SplitNoSeparator(LogFlag, ' ');
  }

  // ---------------------------------------------------------------------
  // Operations

  /** StartNgrok. Guarded by a null check only: any handle, even that of a
      process which has exited, makes it throw. From the null state it
      records a handle and launches the binary once. */
  function StartNgrok(s: Strategy, region: string): (st: Step)
    ensures st.error.Some? <==> s.process.Some?
    ensures st.error.Some? ==>
      st.error.value == Fatal(AlreadyRunningStartMessage) && st.next == s && st.effects == []
    ensures st.error.None? ==>
      && st.next.process.Some? && !st.next.process.value.exited
      && st.next.(process := None) == s
      && st.effects == [Launch(BinaryPath(s.downloadFolder), st.next.process.value.arguments)]
      && st.next.process.value.fileName == BinaryPath(s.downloadFolder)
  {
    if s.process.None? then
      var arguments := StartArguments(region);
      Step(s.(process := Some(ProcessHandle(BinaryPath(s.downloadFolder), arguments, false))),
           [Launch(BinaryPath(s.downloadFolder), arguments)], None)
    else
      Step(s, [], Some(Fatal(AlreadyRunningStartMessage)))
  }

  /** StartNgrokWithLogging. The same guard; the process is launched with
      logging to stdout, both line handlers are attached, and only then does
      line reading begin. */
  function StartNgrokWithLogging(s: Strategy, region: string): (st: Step)
    ensures st.error.Some? <==> s.process.Some?
    ensures st.error.Some? ==>
      st.error.value == Fatal(AlreadyRunningStartMessage) && st.next == s && st.effects == []
    ensures st.error.None? ==>
      && st.next.process.Some? && !st.next.process.value.exited
      && st.next.(process := None) == s
      && st.next.process.value.fileName == BinaryPath(s.downloadFolder)
      && |st.effects| == 5
      && st.effects[0] == Launch(BinaryPath(s.downloadFolder), st.next.process.value.arguments)
      && st.effects[1..] == [SubscribeOutput, SubscribeError, BeginOutputRead, BeginErrorRead]
      && (forall i, j ::
            (0 <= i < |st.effects| && 0 <= j < |st.effects| &&
             st.effects[i] in [SubscribeOutput, SubscribeError] &&
             st.effects[j] in [BeginOutputRead, BeginErrorRead]) ==> i < j)
      && SubscribeOutput in st.effects && SubscribeError in st.effects
      && BeginOutputRead in st.effects && BeginErrorRead in st.effects
  {
    if s.process.None? then
      var arguments := StartWithLoggingArguments(region);
      var launch := Launch(BinaryPath(s.downloadFolder), arguments);
      Step(s.(process := Some(ProcessHandle(BinaryPath(s.downloadFolder), arguments, false))),
           [launch, SubscribeOutput, SubscribeError, BeginOutputRead, BeginErrorRead], None)
    else
      Step(s, [], Some(Fatal(AlreadyRunningStartMessage)))
  }

  /** StartNgrokWithLogging as written: `Start()` is called a second time
      once the handlers are attached. Process.Start() first closes the
      current association, which closes the handle and the pipes of the
      daemon just launched without killing it or disposing of a handle, and then launches the same
      command line again; line reading begins on the second daemon. The
      model's StartNgrokWithLogging is the corrected operation, with one
      launch. */
  function StartNgrokWithLoggingAsWritten(s: Strategy, region: string): (st: Step)
    ensures st.error.Some? <==> s.process.Some?
    ensures st.error.Some? ==>
      st.error.value == Fatal(AlreadyRunningStartMessage) && st.next == s && st.effects == []
    ensures st.error.None? ==>
      && st.next == StartNgrokWithLogging(s, region).next
      && |st.effects| == 7
      && st.effects[0] == st.effects[4] == StartNgrokWithLogging(s, region).effects[0]
      && st.effects[3] == Close
      && Kill !in st.effects && DisposeHandle !in st.effects
  {
    if s.process.None? then
      var arguments := StartWithLoggingArguments(region);
      var launch := Launch(BinaryPath(s.downloadFolder), arguments);
      Step(s.(process := Some(ProcessHandle(BinaryPath(s.downloadFolder), arguments, false))),
           [launch, SubscribeOutput, SubscribeError, Close, launch, BeginOutputRead, BeginErrorRead], None)
    else
      Step(s, [], Some(Fatal(AlreadyRunningStartMessage)))
  }

  /** RegisterAuthTokenAsync. Refused while a handle is held. Otherwise the
      config file is created holding `authtoken:` when it does not exist
      (an existing one is left alone), then the registration subcommand runs
      as a separate process until it exits; the supervised handle stays null.
      Creating the file throws DirectoryNotFoundException when its directory
      `.ngrok2` is missing too, and then nothing is written and nothing runs. */
  function RegisterAuthToken(s: Strategy, token: string, config: ConfigState, home: string): (st: Step)
    ensures st.next == s
    ensures st.error.Some? <==> s.process.Some? || config == NoConfigDirectory
    ensures st.error.Some? ==> st.effects == []
    ensures s.process.Some? ==> st.error == Some(Fatal(AlreadyRunningRegisterMessage))
    ensures s.process.None? && config == NoConfigDirectory ==>
      st.error == Some(DirectoryNotFound(ConfigFile(home)))
    ensures st.error.None? ==>
      && |st.effects| >= 1
      && st.effects[|st.effects| - 1] == RunToExit(BinaryPath(s.downloadFolder), RegisterArguments(token))
      && (forall e :: e in st.effects ==> !e.Launch?)
      && (WriteFile(ConfigFile(home), "authtoken:") in st.effects <==> config == ConfigDirectoryOnly)
      && |st.effects| == (if config == ConfigFilePresent then 1 else 2)
  {
    if s.process.Some? then Step(s, [], Some(Fatal(AlreadyRunningRegisterMessage)))
    else
      var write := WriteFile(ConfigFile(home), "authtoken:");
      var run := RunToExit(BinaryPath(s.downloadFolder), RegisterArguments(token));
      match config
      case NoConfigDirectory => Step(s, [], Some(DirectoryNotFound(ConfigFile(home))))
      case ConfigFilePresent =>
        assert write !in [run];
        Step(s, [run], None)
      case ConfigDirectoryOnly => Step(s, [write, run], None)
  }

  /** SetExecutionBit: `/bin/bash -c "chmod +x {path}"`, run until it exits.
      The path is placed inside the double quotes as it is, without escaping. */
  function SetExecutionBit(path: string): (e: Effect)
    ensures e.RunToExit? && e.fileName == "/bin/bash"
    ensures |e.arguments| == |path| + 14
    ensures e.arguments[..4] == "-c \"" && e.arguments[|e.arguments| - 1] == '"'
    ensures e.arguments[4..|e.arguments| - 1] == "chmod +x " + path
  {
    RunToExit("/bin/bash", "-c \"chmod +x " + path + "\"")
  }

  /** A handle left behind by a process that exited on its own still blocks
      both starts and token registration until StopNgrok clears it. */
  lemma ExitedProcessStillBlocks(s: Strategy, region: string, token: string, config: ConfigState, home: string)
    requires s.process.Some? && s.process.value.exited
    ensures StartNgrok(s, region).error == Some(Fatal(AlreadyRunningStartMessage))
    ensures StartNgrokWithLogging(s, region).error == Some(Fatal(AlreadyRunningStartMessage))
    ensures RegisterAuthToken(s, token, config, home).error == Some(Fatal(AlreadyRunningRegisterMessage))
    ensures StartNgrok(StopNgrok(s).next, region).error.None?
  {
  }

  /** Dispose leaves the guards where they were. */
  lemma DisposeKeepsGuards(s: Strategy, region: string)
    ensures StartNgrok(Dispose(s).next, region).error == StartNgrok(s, region).error
    ensures StartNgrokWithLogging(Dispose(s).next, region).error == StartNgrokWithLogging(s, region).error
  {
  }

  /** The daemon launched by either start operation is asked for the
      requested region, and only StartNgrokWithLogging asks it to log to
      stdout. */
  lemma LaunchNamesRegion(s: Strategy, region: string)
    requires ' ' !in region
    ensures s.process.None? ==>
      ParseStartArguments(StartNgrok(s, region).next.process.value.arguments) == Some((region, false))
    ensures s.process.None? ==>
      ParseStartArguments(StartNgrokWithLogging(s, region).next.process.value.arguments) == Some((region, true))
  {
    StartArgumentsRoundTrip(region);
    StartWithLoggingArgumentsRoundTrip(region);
  }

  /** Starting twice without a stop in between always fails the second time. */
  lemma StartTwiceFails(s: Strategy, first: string, second: string)
    requires s.process.None?
    ensures StartNgrok(StartNgrok(s, first).next, second).error == Some(Fatal(AlreadyRunningStartMessage))
    ensures StartNgrokWithLogging(StartNgrok(s, first).next, second).error == Some(Fatal(AlreadyRunningStartMessage))
  {
  }
}

=== FILE: ready_wait.dfy ===
/** WaitForNgrok: poll the tunnel listing until the control plane answers
    successfully. Time and cancellation are abstracted into a trace with one
    entry per loop iteration. */
module ReadyWait {
  import opened Common

  /** How one GET of the tunnel listing ended. */
  datatype Reply =
    | Answered(status: int)   // a response arrived; EnsureSuccessStatusCode throws HttpRequestException unless 2xx
    | SocketFailure           // SocketException
    | RequestFailure          // HttpRequestException from the transport
    | OtherFailure            // any other exception, including cancellation inside GetAsync

  /** One loop iteration: whether cancellation was requested when the loop
      condition was evaluated, how the GET ended, and the stopwatch reading
      (in milliseconds) when the catch clause compares it with the timeout. */
  datatype Poll = Poll(cancelled: bool, reply: Reply, elapsedMs: nat)

  /** How WaitForNgrok ends. `polls` counts the GETs made. There is no
      constructor for the `return false` after the loop: the loop only exits
      once cancellation is requested, and ThrowIfCancellationRequested then
      throws, so that statement is unreachable. */
  datatype Wait =
    | Ready(polls: nat)                  // returns true
    | Raised(polls: nat, failure: Reply) // an exception escapes
    | Cancelled(polls: nat)              // OperationCanceledException
    | TraceEnded                         // the trace holds no further iteration

  /** `timeout ??= TimeSpan.FromSeconds(4)` */
  const DefaultTimeoutMs := 4000

  /** The caught exception types: a SocketException, or an
      HttpRequestException, whether from the transport or from
      EnsureSuccessStatusCode on a non-2xx answer. */
  predicate Caught(r: Reply) {
    r.SocketFailure? || r.RequestFailure? || (r.Answered? && !IsSuccessStatus(r.status))
  }

  /** An iteration after which the loop goes round again. */
  predicate KeepsPolling(p: Poll, timeoutMs: int) {
    !p.cancelled && Caught(p.reply) && p.elapsedMs <= timeoutMs
  }

  /** What the loop from iteration `i` on can end with. Every iteration
      before the deciding one went round again. A 2xx answer makes it ready.
      An exception escapes only when the filter does not catch it, or when it
      is caught after the timeout has passed. Cancellation is seen when the
      loop condition is evaluated. */
  predicate Decided(trace: seq<Poll>, i: nat, timeoutMs: int, w: Wait)
    requires i <= |trace|
  {
    && (w.Ready? || w.Raised? ==>
          && i < w.polls <= |trace|
          && !trace[w.polls - 1].cancelled
          && forall j :: i <= j < w.polls - 1 ==> KeepsPolling(trace[j], timeoutMs))
    && (w.Ready? ==>
          trace[w.polls - 1].reply.Answered? && IsSuccessStatus(trace[w.polls - 1].reply.status))
    && (w.Raised? ==>
          && w.failure == trace[w.polls - 1].reply
          && (w.failure.OtherFailure? || (Caught(w.failure) && trace[w.polls - 1].elapsedMs > timeoutMs)))
    && (w.Cancelled? ==>
          && i <= w.polls < |trace|
          && trace[w.polls].cancelled
          && forall j :: i <= j < w.polls ==> KeepsPolling(trace[j], timeoutMs))
    && (w.TraceEnded? ==> forall j :: i <= j < |trace| ==> KeepsPolling(trace[j], timeoutMs))
  }

  /** The loop from iteration `i` on. */
  function PollLoop(trace: seq<Poll>, i: nat, timeoutMs: int): (w: Wait)
    requires i <= |trace|
    decreases |trace| - i
    ensures Decided(trace, i, timeoutMs, w)
  {
    if i == |trace| then TraceEnded
    else
      var p := trace[i];
      if p.cancelled then Cancelled(i)
      else if p.reply.Answered? && IsSuccessStatus(p.reply.status) then Ready(i + 1)
      else if !Caught(p.reply) then Raised(i + 1, p.reply)
      else if p.elapsedMs > timeoutMs then Raised(i + 1, p.reply)
      else PollLoop(trace, i + 1, timeoutMs)
  }

  /** WaitForNgrok(timeout); a null timeout means four seconds. The timeout
      is any TimeSpan, negative ones included, compared in milliseconds. */
  function WaitForNgrok(trace: seq<Poll>, timeoutMs: Option<int>): (w: Wait)
    ensures Decided(trace, 0, timeoutMs.GetOr(DefaultTimeoutMs), w)
  {
    PollLoop(trace, 0, timeoutMs.GetOr(DefaultTimeoutMs))
  }

  /** The exception filter: an iteration that is not cancelled and does not
      succeed ends the wait, rethrowing its failure, exactly when the filter
      does not catch that failure or the timeout has passed. A failure the
      filter does not catch escapes whatever the stopwatch reads. */
  lemma ExceptionFilter(p: Poll, rest: seq<Poll>, timeoutMs: int)
    requires !p.cancelled && !(p.reply.Answered? && IsSuccessStatus(p.reply.status))
    ensures PollLoop([p] + rest, 0, timeoutMs) == Raised(1, p.reply) <==> !Caught(p.reply) || p.elapsedMs > timeoutMs
    ensures p.reply.OtherFailure? ==> PollLoop([p] + rest, 0, timeoutMs) == Raised(1, OtherFailure)
  {
    var t := [p] + rest;
    assert t[0] == p;
    if Caught(p.reply) && p.elapsedMs <= timeoutMs {
      assert PollLoop(t, 0, timeoutMs) == PollLoop(t, 1, timeoutMs);
    }
  }

  /** A daemon that answers 2xx at iteration k, after k iterations that all
      stayed within the timeout and failed in a caught way, is reported ready
      after exactly k + 1 GETs. */
  lemma {:induction false} ReadyWhenReachableInTime(trace: seq<Poll>, i: nat, k: nat, timeoutMs: int)
    requires i <= k < |trace|
    requires forall j :: i <= j < k ==> KeepsPolling(trace[j], timeoutMs)
    requires !trace[k].cancelled && trace[k].reply.Answered? && IsSuccessStatus(trace[k].reply.status)
    ensures PollLoop(trace, i, timeoutMs) == Ready(k + 1)
    decreases k - i
  {
    if i < k {
      ReadyWhenReachableInTime(trace, i + 1, k, timeoutMs);
    }
  }

  /** A daemon that never becomes reachable makes the wait raise the caught
      failure of the first iteration past the timeout: never before the
      timeout, and never a generic timeout error. */
  lemma {:induction false} UnreachableRaisesAfterTimeout(trace: seq<Poll>, i: nat, k: nat, timeoutMs: int)
    requires i <= k < |trace|
    requires forall j :: i <= j <= k ==> !trace[j].cancelled && Caught(trace[j].reply)
    requires forall j :: i <= j < k ==> trace[j].elapsedMs <= timeoutMs
    requires trace[k].elapsedMs > timeoutMs
    ensures PollLoop(trace, i, timeoutMs) == Raised(k + 1, trace[k].reply)
    decreases k - i
  {
    if i < k {
      UnreachableRaisesAfterTimeout(trace, i + 1, k, timeoutMs);
    }
  }

  /** The loop outcome is decided by the first iteration that does not keep
      polling: the outcome of WaitForNgrok depends on nothing later. */
  lemma {:induction false} DecidedByFirstStop(trace: seq<Poll>, rest: seq<Poll>, i: nat, k: nat, timeoutMs: int)
    requires i <= k < |trace|
    requires forall j :: i <= j < k ==> KeepsPolling(trace[j], timeoutMs)
    requires !KeepsPolling(trace[k], timeoutMs)
    ensures PollLoop(trace, i, timeoutMs) == PollLoop(trace[..k + 1] + rest, i, timeoutMs)
    decreases k - i
  {
    var t := trace[..k + 1] + rest;
    assert t[i] == trace[i];
    if i < k {
      DecidedByFirstStop(trace, rest, i + 1, k, timeoutMs);
    }
  }

  /** A negative timeout, `Timeout.InfiniteTimeSpan` among them, is already
      exceeded when the stopwatch starts: the first caught failure is
      rethrown, so the wait never retries. */
  lemma NegativeTimeoutNeverRetries(p: Poll, rest: seq<Poll>, timeoutMs: int)
    requires timeoutMs < 0 && !p.cancelled && Caught(p.reply)
    ensures WaitForNgrok([p] + rest, Some(timeoutMs)) == Raised(1, p.reply)
  {
    ExceptionFilter(p, rest, timeoutMs);
  }
}

=== FILE: regions.dfy ===
/** The data-centre regions of NgrokManager and the table that turns each
    region into the two-letter code passed to `--region`. */
module Regions {
  import opened Common

  datatype Region = UnitedStates | Europe | AsiaPacific | Australia | SouthAmerica | Japan | India

  /** The dictionary StartNgrok and StartNgrokWithLogging each build, in the
      order its entries are enumerated (insertion order). */
  const RegionTable: seq<(Region, string)> := [
    (UnitedStates, "us"),
    (Europe, "eu"),
    (AsiaPacific, "ap"),
    (Australia, "au"),
    (SouthAmerica, "sa"),
    (Japan, "jp"),
    (India, "in")
  ]

  /** The seven codes the daemon understands. */
  const WireCodes: set<string> := {"us", "eu", "ap", "au", "sa", "jp", "in"}

  /** `table.First(x => x.Key == r).Value`: the value of the first entry keyed
      by `r`, or None where First would throw InvalidOperationException. */
  function FirstWithKey(table: seq<(Region, string)>, r: Region): (found: Option<string>)
    ensures found.Some? <==> exists i :: 0 <= i < |table| && table[i].0 == r
    ensures found.Some? ==>
      exists i :: 0 <= i < |table| && table[i] == (r, found.value) &&
        forall j :: 0 <= j < i ==> table[j].0 != r
  {
    if |table| == 0 then None
    else if table[0].0 == r then Some(table[0].1)
    else
      var rest := FirstWithKey(table[1..], r);
      assert forall i :: 1 <= i < |table| ==> table[i] == table[1..][i - 1];
      assert rest.Some? ==> exists i :: 1 <= i < |table| && table[i] == (r, rest.value) &&
                                        forall j :: 0 <= j < i ==> table[j].0 != r;
      rest
  }

  /** The key of every table entry is a region and every region is a key. */
  lemma {:induction false} TableCoversAllRegions(r: Region)
    ensures exists i :: 0 <= i < |RegionTable| && RegionTable[i].0 == r
  {
    match r
    case UnitedStates => assert RegionTable[0].0 == r;
    case Europe => assert RegionTable[1].0 == r;
    case AsiaPacific => assert RegionTable[2].0 == r;
    case Australia => assert RegionTable[3].0 == r;
    case SouthAmerica => assert RegionTable[4].0 == r;
    case Japan => assert RegionTable[5].0 == r;
    case India => assert RegionTable[6].0 == r;
  }

  /** The code the manager selects for a region: the lookup in the table never
      fails, so the InvalidOperationException of First is unreachable. */
  function SelectCode(r: Region): (code: string)
    ensures FirstWithKey(RegionTable, r) == Some(code)
  {
    TableCoversAllRegions(r);
    FirstWithKey(RegionTable, r).value
  }

  /** The documented wire code of each region, written independently of the
      table. */
  function WireCode(r: Region): string {
    match r
    case UnitedStates => "us"
    case Europe => "eu"
    case AsiaPacific => "ap"
    case Australia => "au"
    case SouthAmerica => "sa"
    case Japan => "jp"
    case India => "in"
  }

  /** The inverse of the table: the region a wire code names, if any. */
  function RegionOfCode(code: string): Option<Region> {
    if |code| != 2 then None
    else
      match (code[0], code[1])
      case ('u', 's') => Some(UnitedStates)
      case ('e', 'u') => Some(Europe)
      case ('a', 'p') => Some(AsiaPacific)
      case ('a', 'u') => Some(Australia)
      case ('s', 'a') => Some(SouthAmerica)
      case ('j', 'p') => Some(Japan)
      case ('i', 'n') => Some(India)
      case _ => None
  }

  /** The table lookup agrees with the documented code for every region. */
  lemma {:induction false} SelectCodeIsWireCode(r: Region)
    ensures SelectCode(r) == WireCode(r)
  {
    var code := SelectCode(r);
    var i :| 0 <= i < |RegionTable| && RegionTable[i] == (r, code);
  }

  /** Decoding a documented code gives back its region. */
  lemma WireCodeRoundTrip(r: Region)
    ensures RegionOfCode(WireCode(r)) == Some(r)
    ensures |WireCode(r)| == 2
  {
  }

  /** Decoding the selected code gives back the region, so no two regions
      share a code. */
  lemma SelectCodeRoundTrip(r: Region)
    ensures RegionOfCode(SelectCode(r)) == Some(r)
    ensures |SelectCode(r)| == 2
  {
    SelectCodeIsWireCode(r);
    WireCodeRoundTrip(r);
  }

  /** Only the documented code decodes to a region. */
  lemma {:induction false} DecodedCodeIsWireCode(code: string, r: Region)
    requires RegionOfCode(code) == Some(r)
    ensures code == WireCode(r)
  {
    assert |code| == 2;
    var w := WireCode(r);
    assert code[0] == w[0] && code[1] == w[1];
  }

  /** A code decodes to a region exactly when that region selects it. */
  lemma RegionOfCodeInverse(code: string, r: Region)
    ensures RegionOfCode(code) == Some(r) <==> SelectCode(r) == code
  {
    SelectCodeIsWireCode(r);
    WireCodeRoundTrip(r);
    if RegionOfCode(code) == Some(r) {
      DecodedCodeIsWireCode(code, r);
    }
  }

  /** The table is injective. */
  lemma SelectCodeInjective(r1: Region, r2: Region)
    ensures SelectCode(r1) == SelectCode(r2) ==> r1 == r2
  {
    SelectCodeRoundTrip(r1);
    SelectCodeRoundTrip(r2);
  }

  /** The codes in use are exactly us, eu, ap, au, sa, jp and in: every region
      selects one of them and each of them is selected by some region. */
  lemma CodesAreExactlySeven()
    ensures forall r: Region :: SelectCode(r) in WireCodes
    ensures forall c :: c in WireCodes ==> exists r: Region :: SelectCode(r) == c
  {
    forall r: Region ensures SelectCode(r) in WireCodes {
      SelectCodeIsWireCode(r);
    }
    forall c | c in WireCodes ensures exists r: Region :: SelectCode(r) == c {
      var r := RegionOfCode(c).value;
      RegionOfCodeInverse(c, r);
    }
  }
}

=== FILE: tunnel_client.dfy ===
/** The control-plane client of NgrokManager: client-side validation, the
    tunnel-creation retry policy and the request each operation sends. The
    daemon is abstracted to the status codes it answers with. */
module TunnelClient {
  import opened Common
  import opened Urls

  /** StartTunnelDTO. The three required fields are nullable strings; the
      optional fields only matter inside the serialised payload. */
  datatype StartTunnelDto = StartTunnelDto(
    addr: Option<string>,
    name: Option<string>,
    proto: Option<string>,
    subdomain: Option<string>,
    hostname: Option<string>)

  datatype Verb = Get | Post | Delete

  datatype HttpRequest = HttpRequest(verb: Verb, url: string, body: Option<string>)

  /** What one public operation did: the requests it sent, in order, and either
      the status of the response it returned or the exception it threw. */
  datatype Call = Call(sent: seq<HttpRequest>, result: Result<int>)

  /** The loop counter of StartTunnelAsync starts at 5 and runs down to 0. */
  const MaxRetries := 5
  const MaxAttempts := MaxRetries + 1

  // ---------------------------------------------------------------------
  // Validation

  /** The required fields of a tunnel request, in the order they are checked. */
  function RequiredFields(dto: StartTunnelDto): seq<(string, Option<string>)> {
    [("addr", dto.addr), ("name", dto.name), ("proto", dto.proto)]
  }

  /** Reference definition of a check cascade: the name of the first blank
      field, if any. */
  function FirstBlank(fields: seq<(string, Option<string>)>): (p: Option<string>)
    ensures p.Some? <==> exists i :: 0 <= i < |fields| && IsNullOrWhiteSpace(fields[i].1)
    ensures p.Some? ==>
      exists i :: 0 <= i < |fields| && fields[i].0 == p.value && IsNullOrWhiteSpace(fields[i].1) &&
        forall j :: 0 <= j < i ==> !IsNullOrWhiteSpace(fields[j].1)
  {
    if |fields| == 0 then None
    else if IsNullOrWhiteSpace(fields[0].1) then Some(fields[0].0)
    else
      var rest := FirstBlank(fields[1..]);
      assert forall i :: 1 <= i < |fields| ==> fields[i] == fields[1..][i - 1];
      rest
  }

  /** The checks at the top of StartTunnelAsync: the request object, then
      addr, name and proto, each rejected when null or whitespace. */
  function ValidateStart(dto: Option<StartTunnelDto>): (err: Option<Error>)
    ensures err.None? <==>
      dto.Some? && !IsNullOrWhiteSpace(dto.value.addr) && !IsNullOrWhiteSpace(dto.value.name) &&
      !IsNullOrWhiteSpace(dto.value.proto)
    ensures err.Some? && err.value.ArgumentNull? <==> dto.None?
    ensures err.Some? && err.value.ArgumentNull? ==> err.value.param == "startTunnelDto"
    ensures err.Some? && dto.Some? ==>
      err.value.InvalidArgument? && err.value.message == BlankArgumentMessage
  {
    if dto.None? then Some(ArgumentNull("startTunnelDto"))
    else if IsNullOrWhiteSpace(dto.value.addr) then Some(BlankArgument("addr"))
    else if IsNullOrWhiteSpace(dto.value.name) then Some(BlankArgument("name"))
    else if IsNullOrWhiteSpace(dto.value.proto) then Some(BlankArgument("proto"))
    else None
  }

  /** The parameter a failed validation names is the first blank field in the
      order addr, name, proto, whatever the later fields hold. */
  lemma {:induction false} ValidateStartNamesFirstBlank(dto: StartTunnelDto)
    ensures ValidateStart(Some(dto)) ==
      match FirstBlank(RequiredFields(dto))
      case None => None
      case Some(p) => Some(BlankArgument(p))
  {
    var fs := RequiredFields(dto);
    assert fs[1..] == [("name", dto.name), ("proto", dto.proto)];
    assert fs[1..][1..] == [("proto", dto.proto)];
    assert FirstBlank(fs[1..][1..][1..]) == None;
    assert FirstBlank(fs[1..][1..]) == if IsNullOrWhiteSpace(dto.proto) then Some("proto") else None;
    assert FirstBlank(fs[1..]) ==
      if IsNullOrWhiteSpace(dto.name) then Some("name") else FirstBlank(fs[1..][1..]);
  }

  // ---------------------------------------------------------------------
  // Creation with retry

  /** How one POST ends the loop when it is not retried. */
  function Settle(status: int): (r: Result<int>)
    ensures r.Ok? <==> IsSuccessStatus(status)
    ensures r.Ok? ==> r.value == status
    ensures r.Err? ==> r.error == RequestFailed(status)
  {
    if IsSuccessStatus(status) then Ok(status) else Err(RequestFailed(status))
  }

  /** How the retry loop ended: the number of POSTs made and the response
      returned or the exception thrown. */
  datatype Attempts = Attempts(count: nat, result: Result<int>)

  /** The loop `for (retries = 5; retries >= 0; retries--)` after `made` POSTs,
      `responses[k]` being the daemon's answer to POST number k. */
  function PostLoop(responses: seq<int>, retries: int, made: nat): (a: Attempts)
    requires -1 <= retries && made + retries == MaxRetries
    requires |responses| >= MaxAttempts
    decreases retries + 1
    ensures retries >= 0 ==> made < a.count <= MaxAttempts
    ensures retries >= 0 ==> forall k :: made <= k < a.count - 1 ==> responses[k] == ServiceUnavailable
    ensures retries >= 0 && a.count < MaxAttempts ==> responses[a.count - 1] != ServiceUnavailable
    ensures retries >= 0 ==> a.result == Settle(responses[a.count - 1])
  {
    if retries < 0 then
      // The throw after the loop.
      Attempts(made, Err(Fatal("failed to start tunnel")))
    else
      var status := responses[made];
      if IsSuccessStatus(status) then Attempts(made + 1, Ok(status))
      else if retries > 0 && status == ServiceUnavailable then PostLoop(responses, retries - 1, made + 1)
      else Attempts(made + 1, Err(RequestFailed(status)))
  }

  /** The POST every attempt sends: the payload is serialised once, before the
      loop. */
  function CreateRequest(payload: string): HttpRequest {
    HttpRequest(Post, TunnelsUrl, Some(payload))
  }

  /** StartTunnelAsync. `serialize` stands for the JSON serialisation of the
      request; `responses` lists the daemon's answers to successive POSTs (at
      most six are ever made, so six answers describe any daemon). */
  function StartTunnel(dto: Option<StartTunnelDto>, serialize: StartTunnelDto -> string, responses: seq<int>): (c: Call)
    requires |responses| >= MaxAttempts
    ensures ValidateStart(dto).Some? ==> c == Call([], Err(ValidateStart(dto).value))
    ensures ValidateStart(dto).None? ==>
      && 1 <= |c.sent| <= MaxAttempts
      && (forall k :: 0 <= k < |c.sent| ==> c.sent[k] == CreateRequest(serialize(dto.value)))
      && (forall k :: 0 <= k < |c.sent| - 1 ==> responses[k] == ServiceUnavailable)
      && (|c.sent| < MaxAttempts ==> responses[|c.sent| - 1] != ServiceUnavailable)
      && c.result == Settle(responses[|c.sent| - 1])
  {
    match ValidateStart(dto)
    case Some(e) => Call([], Err(e))
    case None =>
      var payload := serialize(dto.value);
      var a := PostLoop(responses, MaxRetries, 0);
      Call(seq(a.count, _ => CreateRequest(payload)), a.result)
  }

  /** A missing request fails with the missing-argument error naming
      `startTunnelDto` and sends nothing. */
  lemma NullRequestSendsNothing(serialize: StartTunnelDto -> string, responses: seq<int>)
    requires |responses| >= MaxAttempts
    ensures StartTunnel(None, serialize, responses) == Call([], Err(ArgumentNull("startTunnelDto")))
    ensures ExceptionMessage(ArgumentNull("startTunnelDto")) == "Value cannot be null. (Parameter 'startTunnelDto')"
  {
  }

  /** A blank addr is reported first, whatever name and proto hold, and no
      POST is made. */
  lemma BlankAddrReportedFirst(dto: StartTunnelDto, serialize: StartTunnelDto -> string, responses: seq<int>)
    requires |responses| >= MaxAttempts
    requires IsNullOrWhiteSpace(dto.addr)
    ensures StartTunnel(Some(dto), serialize, responses) == Call([], Err(BlankArgument("addr")))
    ensures ExceptionMessage(BlankArgument("addr")) == "Value cannot be null or whitespace. (Parameter 'addr')"
  {
  }

  /** Two 503s then a 201: created on the third POST. */
  lemma SucceedsAfterTwoUnavailable(dto: StartTunnelDto, serialize: StartTunnelDto -> string)
    requires ValidateStart(Some(dto)).None?
    ensures var c := StartTunnel(Some(dto), serialize, [503, 503, 201, 0, 0, 0]);
      |c.sent| == 3 && c.result == Ok(201)
  {
  }

  /** Six 503s in a row: six POSTs, then the request-failure error carrying
      503, never the generic failure after the loop. */
  lemma {:induction false} SixUnavailableFails(dto: StartTunnelDto, serialize: StartTunnelDto -> string, responses: seq<int>)
    requires ValidateStart(Some(dto)).None?
    requires |responses| >= MaxAttempts
    requires forall k :: 0 <= k < MaxAttempts ==> responses[k] == ServiceUnavailable
    ensures var c := StartTunnel(Some(dto), serialize, responses);
      |c.sent| == MaxAttempts && c.result == Err(RequestFailed(ServiceUnavailable))
  {
  }

  /** Any status other than 503 ends the loop: a failure that is not 503 is
      reported after the very POST that received it. */
  lemma {:induction false} OtherFailureNotRetried(dto: StartTunnelDto, serialize: StartTunnelDto -> string, responses: seq<int>)
    requires ValidateStart(Some(dto)).None?
    requires |responses| >= MaxAttempts
    requires responses[0] != ServiceUnavailable
    ensures StartTunnel(Some(dto), serialize, responses) ==
      Call([CreateRequest(serialize(dto))], Settle(responses[0]))
  {
    var c := StartTunnel(Some(dto), serialize, responses);
    assert |c.sent| == 1;
    assert c.sent == [CreateRequest(serialize(dto))];
  }

  // ---------------------------------------------------------------------
  // One-shot operations; `response` is the status the daemon answers with.

  /** StopTunnelAsync: a blank name is rejected before any request; otherwise
      one DELETE of the named tunnel, whose status is returned verbatim. */
  function StopTunnel(name: Option<string>, response: int): (c: Call)
    ensures IsNullOrWhiteSpace(name) <==> c.result.Err?
    ensures c.result.Err? ==> c.sent == [] && c.result.error == BlankArgument("name")
    ensures c.result.Ok? ==>
      c.result.value == response && |c.sent| == 1 && c.sent[0].verb == Delete &&
      c.sent[0].body.None? && c.sent[0].url == TunnelUrl(name.value)
  {
    if IsNullOrWhiteSpace(name) then Call([], Err(BlankArgument("name")))
    else Call([HttpRequest(Delete, TunnelUrl(name.value), None)], Ok(response))
  }

  /** ListTunnelsAsync: never throws; one GET of the tunnel collection,
      whose status is returned verbatim. */
  function ListTunnels(response: int): (c: Call)
    ensures c.result == Ok(response)
    ensures |c.sent| == 1 && c.sent[0].verb == Get && c.sent[0].body.None? && c.sent[0].url == TunnelsUrl
  {
    Call([HttpRequest(Get, TunnelsUrl, None)], Ok(response))
  }

  /** The default of the `limit` parameter of both listings. */
  const DefaultLimit: UInt32 := 50

  /** ListCapturedRequests(limit): one GET whose query carries only the limit. */
  function ListCapturedRequests(limit: UInt32, response: int): (c: Call)
    ensures c.result == Ok(response) && |c.sent| == 1 && c.sent[0].verb == Get && c.sent[0].body.None?
    ensures c.sent[0].url == RequestsUrl + "?" + ListQuery(limit)
  {
    Call([HttpRequest(Get, ListUrl(limit), None)], Ok(response))
  }

  /** ListCapturedRequests(name, limit): a blank name is rejected before any
      request; otherwise one GET filtered by tunnel name. */
  function ListCapturedRequestsFor(name: Option<string>, limit: UInt32, response: int): (c: Call)
    ensures IsNullOrWhiteSpace(name) <==> c.result.Err?
    ensures c.result.Err? ==> c.sent == [] && c.result.error == BlankArgument("name")
    ensures c.result.Ok? ==>
      c.result.value == response && |c.sent| == 1 && c.sent[0].verb == Get && c.sent[0].body.None? &&
      c.sent[0].url == RequestsUrl + "?" + FilteredListQuery(name.value, limit)
  {
    if IsNullOrWhiteSpace(name) then Call([], Err(BlankArgument("name")))
    else Call([HttpRequest(Get, FilteredListUrl(name.value, limit), None)], Ok(response))
  }

  /** CapturedRequestDetail: a blank id is rejected before any request;
      otherwise one GET of that captured request. */
  function CapturedRequestDetail(requestId: Option<string>, response: int): (c: Call)
    ensures IsNullOrWhiteSpace(requestId) <==> c.result.Err?
    ensures c.result.Err? ==> c.sent == [] && c.result.error == BlankArgument("requestId")
    ensures c.result.Ok? ==>
      c.result.value == response && |c.sent| == 1 && c.sent[0].verb == Get && c.sent[0].body.None? &&
      c.sent[0].url == RequestUrl(requestId.value)
  {
    if IsNullOrWhiteSpace(requestId) then Call([], Err(BlankArgument("requestId")))
    else Call([HttpRequest(Get, RequestUrl(requestId.value), None)], Ok(response))
  }

  /** DeleteCapturedRequests: never throws; one DELETE of the capture
      buffer, whose status is returned verbatim. */
  function DeleteCapturedRequests(response: int): (c: Call)
    ensures c.result == Ok(response)
    ensures |c.sent| == 1 && c.sent[0].verb == Delete && c.sent[0].body.None? && c.sent[0].url == RequestsUrl
  {
    Call([HttpRequest(Delete, RequestsUrl, None)], Ok(response))
  }

  /** A filtered listing whose name holds no '&' asks the daemon for exactly
      that tunnel and that limit. */
  lemma {:induction false} FilteredListingTargetsTunnel(name: string, limit: UInt32, response: int)
    requires !IsNullOrWhiteSpace(Some(name)) && '&' !in name
    ensures var c := ListCapturedRequestsFor(Some(name), limit, response);
      c.result == Ok(response) &&
      c.sent[0].url == RequestsUrl + "?" + FilteredListQuery(name, limit) &&
      ParseQuery(FilteredListQuery(name, limit)) == [("tunnel_name", name), ("limit", Decimal(limit))] &&
      ParseDecimal(Decimal(limit)) == Some(limit as nat)
  {
    FilteredListQueryCarriesNameAndLimit(name, limit);
    DecimalRoundTrip(limit);
  }

  /** The listing, the creation POST and the per-tunnel DELETE address one
      collection; the capture-buffer DELETE addresses the collection that the
      capture listing and the capture detail read from. */
  lemma SharedCollections(payload: string, name: string, id: string, limit: UInt32, response: int)
    requires !IsNullOrWhiteSpace(Some(name)) && !IsNullOrWhiteSpace(Some(id))
    ensures ListTunnels(response).sent[0].url == CreateRequest(payload).url
    ensures StopTunnel(Some(name), response).sent[0].url[..|TunnelsUrl|] == ListTunnels(response).sent[0].url
    ensures ListCapturedRequests(limit, response).sent[0].url[..|RequestsUrl|] == DeleteCapturedRequests(response).sent[0].url
    ensures CapturedRequestDetail(Some(id), response).sent[0].url[..|RequestsUrl|] == DeleteCapturedRequests(response).sent[0].url
  {
    var stop := StopTunnel(Some(name), response).sent[0].url;
    assert stop[..|TunnelsUrl|] == stop[..|TunnelsUrl| + 1][..|TunnelsUrl|];
    var list := ListCapturedRequests(limit, response).sent[0].url;
    assert list[..|RequestsUrl|] == RequestsUrl;
    var detail := CapturedRequestDetail(Some(id), response).sent[0].url;
    assert detail[..|RequestsUrl|] == detail[..|RequestsUrl| + 1][..|RequestsUrl|];
  }

  /** A listing that leaves `limit` at its default asks for fifty captured
      requests, filtered or not. */
  lemma DefaultListingAsksForFifty(name: string, response: int)
    requires !IsNullOrWhiteSpace(Some(name))
    ensures ListCapturedRequests(DefaultLimit, response).sent[0].url == RequestsUrl + "?limit=50"
    ensures ListCapturedRequestsFor(Some(name), DefaultLimit, response).sent[0].url ==
      RequestsUrl + "?tunnel_name=" + name + "&limit=50"
  {
    assert Decimal(5) == "5";
    assert Decimal(50) == Decimal(5) + ['0'];
  }
}

=== FILE: urls.dfy ===
/** The request targets of the control-plane client: the fixed base address,
    the endpoint paths, the decimal rendering of the `limit` parameter, and a
    query-string reader used to state what each target carries. */
module Urls {
  import opened Common

  /** `_ngrokLocalUrl`, rendered by Uri.ToString. */
  const BaseUrl := "http://localhost:4040/api"
  const TunnelsUrl := BaseUrl + "/tunnels"
  const RequestsUrl := BaseUrl + "/requests/http"

  // ---------------------------------------------------------------------
  // Decimal rendering of unsigned integers (string interpolation of a uint)

  predicate IsDigit(c: char) {
    '0' <= c <= '9'
  }

  function DigitChar(d: nat): (c: char)
    requires d < 10
    ensures IsDigit(c) && (c as int) - ('0' as int) == d
  {
    ('0' as int + d) as char
  }

  /** The shortest decimal numeral of `n`, as interpolation renders it. */
  function Decimal(n: nat): (s: string)
    ensures |s| >= 1
    ensures forall i :: 0 <= i < |s| ==> IsDigit(s[i])
    ensures n > 0 ==> s[0] != '0'
    ensures n == 0 ==> s == "0"
    ensures |s| == 1 || s[0] != '0'
  {
    if n < 10 then [DigitChar(n)] else Decimal(n / 10) + [DigitChar(n % 10)]
  }

  function DigitValue(c: char): nat
    requires IsDigit(c)
  {
    (c as int) - ('0' as int)
  }

  /** The value of a string of digits. */
  function DigitsValue(s: string): nat
    requires forall i :: 0 <= i < |s| ==> IsDigit(s[i])
  {
    if |s| == 0 then 0
    else DigitsValue(s[..|s| - 1]) * 10 + DigitValue(s[|s| - 1])
  }

  /** Reads a non-empty string of digits back as a number. */
  function ParseDecimal(s: string): Option<nat> {
    if |s| > 0 && forall i :: 0 <= i < |s| ==> IsDigit(s[i]) then Some(DigitsValue(s)) else None
  }

  /** Rendering then reading a limit gives back the limit. */
  lemma {:induction false} DecimalRoundTrip(n: nat)
    ensures ParseDecimal(Decimal(n)) == Some(n)
  {
    var s := Decimal(n);
    if n >= 10 {
      DecimalRoundTrip(n / 10);
      assert s[..|s| - 1] == Decimal(n / 10);
      assert DigitValue(s[|s| - 1]) == n % 10;
      assert DigitsValue(s) == (n / 10) * 10 + n % 10;
    } else {
      assert DigitsValue(s) == DigitsValue(s[..0]) * 10 + DigitValue(s[0]);
    }
  }

  // ---------------------------------------------------------------------
  // Reading a query string: split on '&', then each parameter at its first '='

  /** string.Split on one separator character. */
  function Split(s: string, sep: char): (parts: seq<string>)
    ensures |parts| >= 1
  {
    if |s| == 0 then [""]
    else if s[0] == sep then [""] + Split(s[1..], sep)
    else
      var rest := Split(s[1..], sep);
      [[s[0]] + rest[0]] + rest[1..]
  }

  /** A piece free of the separator is one part. */
  lemma {:induction false} SplitNoSeparator(a: string, sep: char)
    requires sep !in a
    ensures Split(a, sep) == [a]
  {
    if |a| > 0 {
      assert sep !in a[1..];
      SplitNoSeparator(a[1..], sep);
      assert [a[0]] + a[1..] == a;
    }
  }

  /** A separator-free prefix followed by the separator is split off whole. */
  lemma {:induction false} SplitPrefix(a: string, sep: char, b: string)
    requires sep !in a
    ensures Split(a + [sep] + b, sep) == [a] + Split(b, sep)
  {
    if |a| == 0 {
      assert a + [sep] + b == [sep] + b;
      assert ([sep] + b)[1..] == b;
    } else {
      assert sep !in a[1..];
      SplitPrefix(a[1..], sep, b);
      assert (a + [sep] + b)[1..] == a[1..] + [sep] + b;
      assert [a[0]] + a[1..] == a;
    }
  }

  /** Index of the first occurrence of `c`, or |s| when absent. */
  function IndexOf(s: string, c: char): (k: nat)
    ensures k <= |s|
    ensures k < |s| ==> s[k] == c
    ensures forall j :: 0 <= j < k ==> s[j] != c
  {
    if |s| == 0 then 0 else if s[0] == c then 0 else 1 + IndexOf(s[1..], c)
  }

  /** One `key=value` parameter; a parameter without '=' has an empty value. */
  function ParseParam(p: string): (string, string) {
    var k := IndexOf(p, '=');
    if k < |p| then (p[..k], p[k + 1..]) else (p, "")
  }

  /** The parameters of a query string, in order. */
  function ParseQuery(q: string): (ps: seq<(string, string)>)
    ensures |ps| == |Split(q, '&')|
  {
    var parts := Split(q, '&');
    seq(|parts|, i requires 0 <= i < |parts| => ParseParam(parts[i]))
  }

  /** A key without '=' is read back from `key=value`. */
  lemma ParseParamOf(key: string, value: string)
    requires '=' !in key
    ensures ParseParam(key + "=" + value) == (key, value)
  {
    var p := key + "=" + value;
    var k := IndexOf(p, '=');
    assert p[|key|] == '=';
    assert forall j :: 0 <= j < |key| ==> p[j] == key[j];
    assert k == |key|;
    assert p[..k] == key;
    assert p[k + 1..] == value;
  }

  // ---------------------------------------------------------------------
  // The request targets

  /** `{_ngrokLocalUrl}/tunnels/{name}` */
  function TunnelUrl(name: string): (url: string)
    ensures |url| == |TunnelsUrl| + 1 + |name|
    ensures url[..|TunnelsUrl| + 1] == TunnelsUrl + "/"
    ensures url[|TunnelsUrl| + 1..] == name
  {
    TunnelsUrl + "/" + name
  }

  /** `{_ngrokLocalUrl}/requests/http/{requestId}` */
  function RequestUrl(requestId: string): (url: string)
    ensures |url| == |RequestsUrl| + 1 + |requestId|
    ensures url[..|RequestsUrl| + 1] == RequestsUrl + "/"
    ensures url[|RequestsUrl| + 1..] == requestId
  {
    RequestsUrl + "/" + requestId
  }

  /** The query of the unfiltered listing: `limit={limit}`. */
  function ListQuery(limit: UInt32): string {
    "limit=" + Decimal(limit)
  }

  /** The query of the listing filtered by tunnel: `tunnel_name={name}&limit={limit}`. */
  function FilteredListQuery(name: string, limit: UInt32): string {
    "tunnel_name=" + name + "&limit=" + Decimal(limit)
  }

  /** `{_ngrokLocalUrl}/requests/http?limit={limit}` */
  function ListUrl(limit: UInt32): (url: string)
    ensures url == RequestsUrl + "?" + ListQuery(limit)
  {
    RequestsUrl + "?limit=" + Decimal(limit)
  }

  /** `{_ngrokLocalUrl}/requests/http?tunnel_name={name}&limit={limit}` */
  function FilteredListUrl(name: string, limit: UInt32): (url: string)
    ensures url == RequestsUrl + "?" + FilteredListQuery(name, limit)
  {
    RequestsUrl + "?tunnel_name=" + name + "&limit=" + Decimal(limit)
  }

  /** The unfiltered listing carries exactly one parameter, `limit`, whose
      value reads back as the requested limit. */
  lemma {:induction false} ListQueryCarriesLimit(limit: UInt32)
    ensures ParseQuery(ListQuery(limit)) == [("limit", Decimal(limit))]
    ensures ParseDecimal(ParseQuery(ListQuery(limit))[0].1) == Some(limit as nat)
  {
    var digits := Decimal(limit);
    var q := ListQuery(limit);
    assert '&' !in q by {
      forall i | 0 <= i < |q| ensures q[i] != '&' {
        if i >= 6 {
          assert q[i] == digits[i - 6];
        }
      }
    }
    SplitNoSeparator(q, '&');
    ParseParamOf("limit", digits);
    assert "limit" + "=" + digits == q;
    DecimalRoundTrip(limit);
    var ps := ParseQuery(q);
    assert |ps| == 1 && ps[0] == ParseParam(q);
  }

  /** A '&'-free text with a prefix is still '&'-free. */
  lemma NoAmpersandAfterPrefix(prefix: string, text: string)
    requires '&' !in prefix && '&' !in text
    ensures '&' !in prefix + text
  {
    var t := prefix + text;
    forall i | 0 <= i < |t| ensures t[i] != '&' {
      if i < |prefix| {
        assert t[i] == prefix[i];
      } else {
        assert t[i] == text[i - |prefix|];
      }
    }
  }

  /** The digits of a limit hold no '&'. */
  lemma NoAmpersandInDecimal(n: nat)
    ensures '&' !in Decimal(n)
  {
    var digits := Decimal(n);
    assert forall i :: 0 <= i < |digits| ==> digits[i] != '&';
  }

  /** When the tunnel name contains no '&', the filtered listing carries
      exactly `tunnel_name` = the name and `limit` = the limit, in that order. */
  lemma {:induction false} FilteredListQueryCarriesNameAndLimit(name: string, limit: UInt32)
    requires '&' !in name
    ensures ParseQuery(FilteredListQuery(name, limit)) == [("tunnel_name", name), ("limit", Decimal(limit))]
    ensures ParseDecimal(ParseQuery(FilteredListQuery(name, limit))[1].1) == Some(limit as nat)
  {
    var digits := Decimal(limit);
    var first := "tunnel_name=" + name;
    var second := "limit=" + digits;
    var q := FilteredListQuery(name, limit);
    FilteredQuerySplit(name, limit);
    ParseParamOf("tunnel_name", name);
    assert "tunnel_name" + "=" + name == first;
    ParseParamOf("limit", digits);
    assert "limit" + "=" + digits == second;
    DecimalRoundTrip(limit);
    var ps := ParseQuery(q);
    assert |ps| == 2 && ps[0] == ParseParam(first) && ps[1] == ParseParam(second);
  }

  /** A filtered query whose name holds no '&' splits into its two
      parameters. */
  lemma FilteredQuerySplit(name: string, limit: UInt32)
    requires '&' !in name
    ensures Split(FilteredListQuery(name, limit), '&') == ["tunnel_name=" + name, "limit=" + Decimal(limit)]
  {
    var digits := Decimal(limit);
    var first := "tunnel_name=" + name;
    var second := "limit=" + digits;
    assert FilteredListQuery(name, limit) == first + ['&'] + second;
    NoAmpersandAfterPrefix("tunnel_name=", name);
    NoAmpersandInDecimal(limit);
    NoAmpersandAfterPrefix("limit=", digits);
    SplitPrefix(first, '&', second);
    SplitNoSeparator(second, '&');
  }

  /** The pieces a filtered query splits into at '&' when the name holds
      one '&'. */
  lemma SplitWithAmpersandInName(a: string, b: string, limit: UInt32)
    requires '&' !in a && '&' !in b
    ensures Split(FilteredListQuery(a + "&" + b, limit), '&') ==
      ["tunnel_name=" + a, b, "limit=" + Decimal(limit)]
  {
    var digits := Decimal(limit);
    var first := "tunnel_name=" + a;
    var third := "limit=" + digits;
    assert FilteredListQuery(a + "&" + b, limit) == first + ['&'] + (b + ['&'] + third);
    NoAmpersandAfterPrefix("tunnel_name=", a);
    NoAmpersandInDecimal(limit);
    NoAmpersandAfterPrefix("limit=", digits);
    SplitPrefix(first, '&', b + ['&'] + third);
    SplitPrefix(b, '&', third);
    SplitNoSeparator(third, '&');
  }

  /** The tunnel name is interpolated without escaping: a name `a&b` holding
      one '&' yields three parameters, the middle one read from `b`, so the
      name the daemon filters on is only `a`. */
  lemma {:induction false} AmpersandInNameSplitsParameter(a: string, b: string, limit: UInt32)
    requires '&' !in a && '&' !in b
    ensures ParseQuery(FilteredListQuery(a + "&" + b, limit)) ==
      [("tunnel_name", a), ParseParam(b), ("limit", Decimal(limit))]
  {
    var digits := Decimal(limit);
    var first := "tunnel_name=" + a;
    var third := "limit=" + digits;
    SplitWithAmpersandInName(a, b, limit);
    ParseParamOf("tunnel_name", a);
    assert "tunnel_name" + "=" + a == first;
    ParseParamOf("limit", digits);
    assert "limit" + "=" + digits == third;
    var ps := ParseQuery(FilteredListQuery(a + "&" + b, limit));
    assert |ps| == 3 && ps[0] == ParseParam(first) && ps[1] == ParseParam(b) && ps[2] == ParseParam(third);
  }

  /** For instance, filtering on `web&limit=1` with limit 50 sends a first
      `limit` of 1. */
  lemma NameWithAmpersandInjectsLimit()
    ensures ParseQuery(FilteredListQuery("web&limit=1", 50)) ==
      [("tunnel_name", "web"), ("limit", "1"), ("limit", Decimal(50))]
  {
    AmpersandInNameSplitsParameter("web", "limit=1", 50);
    assert "web" + "&" + "limit=1" == "web&limit=1";
    ParseParamOf("limit", "1");
    assert "limit" + "=" + "1" == "limit=1";
  }
}
